=== FILE: README.md ===
# confd template resource pipeline in Dafny

This project models the per-resource stage-and-commit pipeline of confd's template
resources. A resource is a (template, destination) pair. It is built from a descriptor
(`NewTemplateResource`). On every pass (`process`) it does the following:

- resolves the destination's permission bits (`setFileMode`);
- loads the backend's key/value pairs into its store (`setVars`);
- renders the template into a hidden staged file next to the destination (`CreateStageFile`);
- compares that file with the destination (`sync`). Only when the two differ does it run the optional check command, replace the destination, and run the optional reload command.

Everything is a pure function over an abstract filesystem, a map from path to a file's
content, mode, uid and gid. The parts of the system that live outside the resource code
are parameters of the model:

- the TOML decoder's result;
- the user and group directory;
- the process's effective ids;
- the backend's answer;
- the template engine;
- afero's random temporary-file suffix;
- `util.IsConfigChanged`;
- the shell;
- what the filesystem reports for a rename, and for the busy fallback's read and write.

Modules, in pipeline order:

- `Outcomes`: `Option`, `Result` and the error kinds the pipeline returns.
- `Digits`, `Numbers`: `strconv.ParseUint(s, 0, 32)` for mode strings (base prefixes `0b`/`0o`/`0x` in either case, a bare leading `0` for octal, `_` separators, the 32-bit range), and `strconv.Atoi` for looked-up ids. `ParseMode` is the declarative definition. `ParseUint` and `UnderscoreOK` are the loop implementations, proved equal to it.
- `Paths`: `path.Clean`, `path.Join`/`filepath.Join`, `filepath.Dir`, `filepath.Base` and `strings.TrimPrefix`, modelled on their segment semantics.
- `FileSystem`: the abstract filesystem and its operations.
- `Resource`: the descriptor, the resource record and `NewTemplateResource`.
- `Store`: the store keys and `setVars`.
- `Stage`: `setFileMode` and `CreateStageFile`.
- `Syncing`: the `check` command line and `sync`.
- `Pipeline`: `process`, with its cross-step properties.
- `Scenario`: the end-to-end case of `TestProcessTemplateResources`.

Three behaviours of the code are worth stating plainly:

- **Noop mode.** In noop mode `sync` returns nil, so no error and no change are reported (`Syncing.Sync`).
- **Busy fallback.** `afero.WriteFile` keeps an existing destination's mode, and only ownership is reapplied, so an existing destination keeps its old mode in that path (`Pipeline.BusyFallbackKeepsMode`).
- **Check placeholder.** The check command names the staged file through the template action `{{.src}}`.

## Model

| member | source | states |
|---|---|---|
| `Numbers.ParseMode` | pkg/template/resource.go:344-348 | a mode string parses only if it is non-empty and its digits (after the base prefix) belong to the base it selects; the value fits in 32 bits; every failure is `InvalidMode` |
| `Numbers.ParseUint` | pkg/template/resource.go:344-348 | the digit-scanning loop with the overflow cut-off returns exactly the declarative `ParseMode` result for every string |
| `Numbers.UnderscoreOK` | pkg/template/resource.go:344 | the character-state scan accepts a string exactly when every `_` sits between two digits (or right after a base prefix), after an optional sign |
| `Numbers.OctalModeRoundTrip` | pkg/template/resource.go:344-348 | "0" followed by the octal digits of any 32-bit n parses back to n |
| `Numbers.HexModeRoundTrip` | pkg/template/resource.go:344-348 | "0x" followed by the hex digits of any 32-bit n parses back to n |
| `Numbers.DecimalModeRoundTrip` | pkg/template/resource.go:344-348 | the decimal digits of any positive 32-bit n parse back to n (decimal, because there is no leading 0) |
| `Numbers.OctalModeOutOfRange` | pkg/template/resource.go:344-347 | an octal mode above 2^32-1 is refused |
| `Numbers.StrayCharacterRefused` | pkg/template/resource.go:344-347 | a mode string holding anywhere a character that is not an ASCII letter, not a decimal digit and not `_` is refused with `InvalidMode`, whatever its base (such a character is never part of a base prefix) |
| `Numbers.NonDigitRefused` | pkg/template/resource.go:344-347 | a mode string with a character after its base prefix that is neither `_` nor a digit of the base it selects is refused with `InvalidMode` |
| `Numbers.Atoi` | pkg/template/resource.go:112-115 | a looked-up id converts only if it is a non-empty optionally signed decimal within the 64-bit range; a failure names the text |
| `Numbers.AtoiRoundTrip` | pkg/template/resource.go:112 | the decimal text of any 64-bit id converts back to that id |
| `Paths.TrimPrefix` | pkg/template/resource.go:155 | the prefix followed by the result gives back the key when the key starts with the prefix; any other key is unchanged |
| `Paths.Join` | pkg/template/resource.go:136 | the joined path is empty exactly when both parts are; it is rooted exactly when the first non-empty part is |
| `Paths.Dir` | pkg/template/resource.go:179 | the directory is never empty, is already clean, is rooted exactly when the path is, and is "." for a path without a slash |
| `Paths.Base` | pkg/template/resource.go:179 | the base name is never empty and holds no slash unless it is "/" itself; a non-empty path without a slash is its own base |
| `Paths.Clean` | pkg/template/resource.go:155 | cleaning never yields the empty path and keeps a path rooted exactly when it was rooted |
| `Paths.CleanIdempotent` | pkg/template/resource.go:155 | cleaning a cleaned path changes nothing |
| `Paths.JoinRootOrdinary` | pkg/template/resource.go:155 | joining "/" with plain names separated by '/' just prepends '/' |
| `Paths.DirOfJoin` | pkg/template/resource.go:179 | a single plain name joined onto a directory result lies in that directory |
| `Paths.BaseOfJoin` | pkg/template/resource.go:179 | the base of a single plain name joined onto a directory result is that name |
| `Resource.ResourcePrefix` | pkg/template/resource.go:94-100 | the resource prefix always starts with '/'; the chosen prefix (the configuration's when non-empty, else the descriptor's) is kept as it is when it already starts with '/', and gets exactly one '/' in front otherwise |
| `Resource.ResourcePrefixIdempotent` | pkg/template/resource.go:94-100 | a rooted descriptor prefix is kept as it is; a normalised prefix, given again in either slot, comes back unchanged |
| `Resource.ResolveId` | pkg/template/resource.go:106-134 | a set id is kept; an unset id without a name is the effective id; an unset id with a name is the directory's id converted by `Atoi`, or an error when the name is unknown |
| `Resource.NewTemplateResource` | pkg/template/resource.go:69-138 | the store client is checked first, then the decode, whose failure is returned as `DescriptorError` with the decoder's message, then the empty `src`; then the owner is resolved before the group, and the first id that fails to resolve gives the error returned; a resource is built exactly when both ids resolve; its prefix is the normalised resource prefix, `src` is joined onto the template directory, the descriptor fields are copied and the store starts empty |
| `Resource.OwnerIdRoundTrip` | pkg/template/resource.go:106-115 | an owner whose directory entry holds the decimal text of a uid resolves to exactly that uid |
| `Store.StoreKey` | pkg/template/resource.go:155 | every store key starts with '/' |
| `Store.Load` | pkg/template/resource.go:152-156 | the store holds exactly the store keys of the fetched keys, all rooted |
| `Store.SetVars` | pkg/template/resource.go:141-158 | a backend error is returned and changes nothing; otherwise only the store changes, and its keys are exactly the store keys of the fetched keys |
| `Store.NoStaleKeys` | pkg/template/resource.go:152-156 | the store after a successful fetch does not depend on what it held before |
| `Store.LoadLastWins` | pkg/template/resource.go:154-156 | a store key holds the value of the last fetched pair that maps to it |
| `Store.LoadInjective` | pkg/template/resource.go:154-156 | when no two fetched keys share a store key, every pair is present with its own value and the store has one entry per pair |
| `Store.StoreKeyStripsPrefix` | pkg/template/resource.go:155 | a key made of the prefix and plain names is stored as those names rooted at '/' |
| `Store.PrefixScenario` | pkg/template/resource.go:155 | with prefix "/app/", "/app/db/host" is stored as "/db/host" and not under its backend name |
| `Stage.SetFileMode` | pkg/template/resource.go:332-351 | no mode and no destination gives 0644; no mode and a destination gives the destination's mode; otherwise the `ParseUint` value, or `InvalidMode` with nothing changed; only `fileMode` changes |
| `Stage.ExplicitOctalMode` | pkg/template/resource.go:343-348 | an explicit "0"-prefixed octal mode resolves to exactly that number whatever the destination holds |
| `Stage.CreateStageFile` | pkg/template/resource.go:164-197 | staging succeeds exactly when the template exists, compiles and executes and a fresh temporary file was created; the first failing step gives the error: a missing template `MissingTemplate`, then a template that does not compile `TemplateSyntaxError`, then a temporary file that could not be created or whose name is taken `TempFileFailed`, then a failed execution `TemplateRenderError`; every failure leaves the filesystem and the resource unchanged (no staged file behind); success adds exactly one new file holding the rendered text with the resolved mode and owner, and records it as the staged file |
| `Stage.TempName` | pkg/template/resource.go:179 | the staged file's name is a non-empty clean path, rooted exactly when the destination is |
| `Stage.StageFileIsSibling` | pkg/template/resource.go:178-179 | the staged file lies in the destination's directory and is named "." + the destination's base name + the random digits |
| `Stage.StagedIsNotDest` | pkg/template/resource.go:178-179 | the staged file is never the destination itself |
| `Syncing.CheckCommand` | pkg/template/resource.go:268-279 | a check command without a template action is run exactly as configured |
| `Syncing.ReplacePlain` | pkg/template/resource.go:270-279 | check-command text without template actions is run as it is |
| `Syncing.ReplaceSplice` | pkg/template/resource.go:270-279 | the `{{.src}}` action is replaced in place by the staged file's path |
| `Syncing.CheckStagedFile` | pkg/template/resource.go:270-279 | a check command "cmd {{.src}}" runs "cmd" on the staged file's path |
| `Syncing.Commit` | pkg/template/resource.go:229-249 | the commit succeeds exactly on a rename, or on a busy rename followed by a good read of the staged file and a good write; a failed read returns `ReadFailed` with nothing changed; after it the destination holds the staged content; a rename carries the staged file's mode and owner; the busy write keeps an existing destination's mode and sets the resource's owner; only the staged file and destination can change |
| `Syncing.Attempt` | pkg/template/resource.go:212-258 | noop or unchanged runs nothing and changes nothing; a check command that fails returns `CheckFailed` with its message, runs nothing else and changes nothing; past the check the filesystem is the commit's, a commit error is returned as it is, and after a good commit the pass fails exactly when a configured reload fails, with `ReloadFailed`; a reload runs only after a commit and always after the check |
| `Syncing.Sync` | pkg/template/resource.go:204-260 | the staged file is gone on every path unless kept; noop and unchanged remove only it; a failed check leaves the destination untouched; a successful changed pass leaves the staged content in the destination; only the staged file and destination can change |
| `Syncing.SyncCheckGate` | pkg/template/resource.go:221-226 | a changed staged file whose check command fails gives `CheckFailed` with the command's message; only the check runs and the filesystem changes at most by the staged file's removal |
| `Syncing.SyncCommitOutcome` | pkg/template/resource.go:228-253 | past a passed or absent check, `sync`'s filesystem is the commit's less the staged file unless kept; a commit error is returned as it is; after a good commit the pass fails exactly when a configured reload command fails |
| `Syncing.VerdictErrorIgnored` | pkg/template/resource.go:213-216 | the comparison's error does not change what `sync` does |
| `Syncing.ReloadFailureKeepsCommit` | pkg/template/resource.go:250-253 | after a passed or absent check and a successful commit, by rename or by the busy fallback, a failing reload is reported as `ReloadFailed` and the staged content stays in the destination |
| `Syncing.RenameErrorSkipsReload` | pkg/template/resource.go:246-248 | a non-busy rename error is returned, no reload runs, and the destination is untouched |
| `Pipeline.SyncStaged` | pkg/template/resource.go:325-327 | the sync step, relative to the filesystem before staging, changes only the destination (plus a kept staged file); noop or an unchanged comparison reports nothing, runs nothing and leaves the destination; the destination changes only on a non-noop pass whose comparison found a change and whose check command did not fail |
| `Pipeline.SyncStagedCheckGate` | pkg/template/resource.go:221-226 | a changed staged file whose check fails is reported with the check's message, the destination is left as it was, and only the check runs |
| `Pipeline.SyncStagedCommits` | pkg/template/resource.go:228-253 | a changed staged file whose check passed and whose commit succeeded is in the destination, and the pass fails exactly when a configured reload fails |
| `Pipeline.SyncStagedReachesCommit` | pkg/template/resource.go:229-245 | the destination changes only through a successful commit, or through the busy fallback's chown after a failed write |
| `Pipeline.RenameCommit` | pkg/template/resource.go:229-230 | without commands, a changed staged file committed by rename takes the destination's place and nothing else changes |
| `Pipeline.StageAndSync` | pkg/template/resource.go:164-260 | for a resource with mode and store resolved: a staging error changes nothing and runs nothing; no file other than the destination changes; noop runs nothing and leaves the destination as it was; a changed destination means a non-noop pass that returned no error or a commit or reload error, and a successful one holds the rendered template (with the resolved mode on a rename, the old mode in the busy fallback) |
| `Pipeline.StageAndSyncReachesCommit` | pkg/template/resource.go:221-229 | for a resource with mode and store resolved, a changed destination means the comparison of the staged file found a change and its check command did not fail |
| `Pipeline.Process` | pkg/template/resource.go:315-329 | a pass stops at the first error; an invalid mode and a backend error are returned with the filesystem and store unchanged; any error before `sync` leaves the filesystem unchanged and runs no command; no file other than the destination changes; new files are only the destination and a kept staged file; noop runs nothing and leaves the destination as it was; sync-only runs nothing |
| `Pipeline.ProcessReachesSync` | pkg/template/resource.go:315-328 | once `setFileMode` and `setVars` succeed, a staging error is returned as it is with the filesystem unchanged and no command run, and a successful staging goes on to `sync` of its fresh hidden sibling |
| `Pipeline.ProcessStagesSibling` | pkg/template/resource.go:315-329 | a pass that reaches `sync` carries the mode `setFileMode` resolved and records the destination's hidden sibling as its staged file |
| `Pipeline.ProcessChangesDestOnCommit` | pkg/template/resource.go:315-329 | the destination changes only on a non-noop pass whose comparison of the staged file with the destination found a change and whose check command did not fail; such a pass returns no error or a rename, read, write or reload error |
| `Pipeline.ProcessCheckGate` | pkg/template/resource.go:223-226 | when the check command fails on the pass's staged file, the destination is left as it was, no command other than the check runs, and the only error from `sync` is the check's |
| `Pipeline.ProcessCommitsOnRename` | pkg/template/resource.go:228-253 | when the mode, the store and the staging steps succeed, the staged file differs from the destination, its check did not fail and the rename is accepted, the staged file is in the destination's place and the pass fails exactly when a configured reload fails |
| `Pipeline.ProcessWritesRendering` | pkg/template/resource.go:315-329 | a successful pass that changed the destination left in it the template read from `src` and executed over the store loaded from the backend; a rename carries the resolved mode and the resource's owner, the busy fallback keeps an existing destination's mode |
| `Pipeline.ModeInherited` | pkg/template/resource.go:333-341 | with no mode given, a destination replaced by rename keeps its permission bits |
| `Pipeline.BusyFallbackKeepsMode` | pkg/template/resource.go:240-242 | in the busy fallback an existing destination keeps its mode and takes the resource's owner |
| `Pipeline.ReferenceVerdict` | pkg/util/filestat_posix.go:12-34 | the reference comparison reports "in sync" exactly when the staged file and destination both exist with the same content, mode and owner |
| `Pipeline.ReferenceMatchesUtilTests` | pkg/util/util_test.go:186-244 | the reference comparison gives false for two files with the same text and true for files with different text |
| `Pipeline.SecondPassIsQuiet` | pkg/template/resource.go:315-329 | after a pass that committed by rename, an identical pass runs no command and leaves the filesystem exactly as it found it |
| `Scenario.ProcessTemplateResources` | pkg/template/resource_test.go:43-111 | building the test resource and processing it writes "foo = bar" into the destination, keeps its mode, and leaves no other file |

## Left out

- Logging is left out. It has no effect on results.
- TOML decoding of the descriptor (`toml.DecodeFS`) is an input of `NewTemplateResource`: a decoded descriptor or the decoder's error message. It is a foreign decoder.
- `user.Lookup` and `user.LookupGroup` are lookup functions in the model, and `os.Geteuid` and `os.Getegid` are parameters. They are operating-system calls.
- The backend client's `GetValues` is a fetched sequence of pairs, in the order Go's `range` visits the map. That order is random at run time.
- `util.AppendPrefix` is not part of this model, so which keys are requested is not modelled. The store is built from whatever the backend returned.
- memkv's listing and ordered-iteration functions and the template function map are left out. They live in the template engine, not in the pipeline.
- `text/template` compiling and executing the resource template is an input: a function from template text and store to parse failure, execution failure or text. It is a foreign engine.
- The check command is a template executed with `.src` bound to the staged path. The model only expands the literal action `{{.src}}`. Other actions, spacing variants such as `{{ .src }}`, and parse or execution errors of the check template are not modelled.
- `runCommand` (`/bin/sh -c` or `cmd /C`) is a function from command line to success or failure. It runs processes.
- afero's temporary-file suffix is an input: a non-empty digit string. Two afero behaviours are not modelled:
  - afero retries up to 10000 names on a collision; a suffix naming an existing file stands for that search failing;
  - afero substitutes the random part for a `*` in the pattern; a destination base name containing `*` is not modelled.
- Stage.CreateStageFile: the creating process's ids on the temporary file are not tracked. The file is either removed or chowned before anything reads them.
- `util.IsConfigChanged` is an input, because its source is not part of this model. `Pipeline.ReferenceVerdict` is a reference instance consistent with the utility tests.
- `util.IsFileExist` is map membership.
- setFileMode's error when `Stat` of an existing destination fails is not modelled. The filesystem model has no failing stat.
- Chmod and Chown are assumed to succeed; the source ignores their errors, and the model has no failing call. When chown fails (a process that is not root setting another owner), the staged file keeps the process's ids, every pass finds it changed and commits and reloads again; `Pipeline.SecondPassIsQuiet` and the owner parts of the `Stage.CreateStageFile` and `Syncing.Commit` contracts rely on this assumption.
- Go's `os.FileMode` keeps setuid, setgid and sticky as its own flag bits. `os.Chmod` keeps only those flags and the 0777 bits. In the model, modes are plain numbers, so an octal 04000-style bit in a descriptor is carried as given.
- Syncing.Commit: a failed busy-fallback write leaves the destination's content unchanged. A partial write after truncation is not modelled.
- Syncing.Commit: a new destination created by the busy fallback gets the resource's mode without the process umask.
- The busy fallback's read of the staged file (`afero.ReadFile`) is an outcome kind of the same input as its write: a read error is returned before any write or chown.
- The busy rename error is an outcome kind. The substring match on "device or resource busy" is not modelled.
- Closing the staged file handle and the `lastIndex` field play no part in the results.
- `Process(c)`, `util.FileStat`'s I/O and MD5 hashing, and `RecursiveFilesLookup` are not part of this model. The content comparison stands in for the MD5 comparison.

=== FILE: digits.dfy ===
/** Positional digit strings, as Go's strconv package reads and writes them. */
module Digits {

  /** ASCII lower-casing of letters, the `c | 0x20` of the strconv parsers restricted to letters. */
  function Lower(c: char): char {
    if 'A' <= c <= 'Z' then (c as int + 32) as char else c
  }

  /** Value of a digit character in any base up to 36; 36 for a character that is a digit in none. */
  function DigitValue(c: char): (d: nat)
    ensures d <= 36
    ensures d < 10 <==> '0' <= c <= '9'
  {
    if '0' <= c <= '9' then c as int - '0' as int
    else if 'a' <= Lower(c) <= 'z' then Lower(c) as int - 'a' as int + 10
    else 36
  }

  predicate IsDigitIn(c: char, base: nat) {
    DigitValue(c) < base
  }

  /** The number a digit string denotes, most significant digit first. */
  function Value(ds: string, base: nat): nat {
    if |ds| == 0 then 0 else Value(ds[..|ds| - 1], base) * base + DigitValue(ds[|ds| - 1])
  }

  function DigitChar(d: nat): (c: char)
    requires d < 16
    ensures DigitValue(c) == d
  {
    if d < 10 then ('0' as int + d) as char else ('a' as int + d - 10) as char
  }

  /** The shortest digit string for `n` in `base`, as strconv.FormatUint writes it. */
  function Format(n: nat, base: nat): string
    requires 2 <= base <= 16
    decreases n
  {
    if n < base then [DigitChar(n)] else Format(n / base, base) + [DigitChar(n % base)]
  }

  /** Every character is a digit of the base. */
  predicate AllDigitsIn(s: string, base: nat) {
    forall i :: 0 <= i < |s| ==> IsDigitIn(s[i], base)
  }

  lemma DigitsSnoc(p: string, c: char, base: nat)
    requires |p| >= 1 && IsDigitIn(c, base) && AllDigitsIn(p, base)
    ensures (p + [c])[0] == p[0]
    ensures AllDigitsIn(p + [c], base)
  {
  }

  lemma DigitsSmall(n: nat, base: nat)
    requires 2 <= base <= 16 && n < base
    ensures Format(n, base) == [DigitChar(n)]
    ensures AllDigitsIn([DigitChar(n)], base)
    ensures n > 0 ==> DigitChar(n) != '0'
  {
    assert DigitValue('0') == 0;
  }

  lemma DivSmaller(n: nat, base: nat)
    requires 2 <= base <= n
    ensures 0 < n / base < n
  {
  }

  /** Every character Format writes is a digit of the base, and there is no leading zero
      except in "0" itself. */
  lemma {:induction false} FormatDigits(n: nat, base: nat)
    requires 2 <= base <= 16
    ensures |Format(n, base)| >= 1
    ensures AllDigitsIn(Format(n, base), base)
    ensures n > 0 ==> Format(n, base)[0] != '0'
    decreases n
  {
    if n >= base {
      var q := n / base;
      DivSmaller(n, base);
      var p, c := Format(q, base), DigitChar(n % base);
      FormatDigits(q, base);
      assert Format(n, base) == p + [c];
      DigitsSnoc(p, c, base);
    } else {
      DigitsSmall(n, base);
    }
  }

  lemma ValueSnoc(p: string, c: char, base: nat)
    ensures Value(p + [c], base) == Value(p, base) * base + DigitValue(c)
  {
    assert (p + [c])[..|p|] == p;
  }

  lemma Euclid(n: nat, base: nat)
    requires base > 0
    ensures n == (n / base) * base + n % base
  {
  }

  lemma FormatStep(n: nat, base: nat)
    requires 2 <= base <= n && base <= 16
    ensures Value(Format(n, base), base) == Value(Format(n / base, base), base) * base + n % base
  {
    ValueSnoc(Format(n / base, base), DigitChar(n % base), base);
  }

  lemma FormatSmall(n: nat, base: nat)
    requires 2 <= base <= 16 && n < base
    ensures Value(Format(n, base), base) == n
  {
    ValueSnoc([], DigitChar(n), base);
    assert [] + [DigitChar(n)] == Format(n, base);
  }

  /** Reading back what Format wrote gives the number. */
  lemma {:induction false} FormatValue(n: nat, base: nat)
    requires 2 <= base <= 16
    ensures Value(Format(n, base), base) == n
    decreases n
  {
    if n >= base {
      DivSmaller(n, base);
      FormatValue(n / base, base);
      FormatStep(n, base);
      Euclid(n, base);
    } else {
      FormatSmall(n, base);
    }
  }

  /** Reading back what Format wrote gives the number, every character is a digit of the
      base, and there is no leading zero except in "0" itself. */
  lemma FormatRoundTrip(n: nat, base: nat)
    requires 2 <= base <= 16
    ensures Value(Format(n, base), base) == n
    ensures |Format(n, base)| >= 1
    ensures AllDigitsIn(Format(n, base), base)
    ensures n > 0 ==> Format(n, base)[0] != '0'
  {
    FormatValue(n, base);
    FormatDigits(n, base);
  }
}

=== FILE: filesystem.dfy ===
/** The abstract filesystem the resource pipeline works on: a map from path to a regular
    file's content, permission bits and owner. Directories are not represented; an
    operation that needs one to exist reports its outcome through an oracle instead. */
module FileSystem {

  datatype FileInfo = FileInfo(content: string, mode: nat, uid: int, gid: int)

  type Fs = map<string, FileInfo>

  /** `fs.Remove`: the file is gone; removing a missing file changes nothing (the pipeline
      ignores that error). */
  function Remove(fs: Fs, p: string): (r: Fs)
    ensures p !in r
    ensures forall q :: q != p ==> (q in r <==> q in fs) && (q in r ==> r[q] == fs[q])
  {
    fs - {p}
  }

  /** `fs.Rename` that the filesystem accepted: the file, with its mode and owner, now lives
      at `dst`, replacing whatever was there; renaming a file onto itself changes nothing. */
  function Move(fs: Fs, src: string, dst: string): (r: Fs)
    requires src in fs
    ensures dst in r && r[dst] == fs[src]
    ensures src != dst ==> src !in r
    ensures forall q :: q != src && q != dst ==> (q in r <==> q in fs) && (q in r ==> r[q] == fs[q])
  {
    if src == dst then fs else (fs - {src})[dst := fs[src]]
  }

  /** `fs.Chmod`, assumed to succeed on an existing file: a missing file stays missing. */
  function Chmod(fs: Fs, p: string, mode: nat): (r: Fs)
    ensures r.Keys == fs.Keys
    ensures p in fs ==> r[p] == fs[p].(mode := mode)
    ensures forall q :: q != p && q in fs ==> r[q] == fs[q]
  {
    if p in fs then fs[p := fs[p].(mode := mode)] else fs
  }

  /** `fs.Chown`, assumed to succeed on an existing file (the process may set that owner): a
      missing file stays missing. */
  function Chown(fs: Fs, p: string, uid: int, gid: int): (r: Fs)
    ensures r.Keys == fs.Keys
    ensures p in fs ==> r[p] == fs[p].(uid := uid, gid := gid)
    ensures forall q :: q != p && q in fs ==> r[q] == fs[q]
  {
    if p in fs then fs[p := fs[p].(uid := uid, gid := gid)] else fs
  }

  /** A successful `afero.WriteFile`: the content is replaced by a truncating write. An
      existing file keeps its mode and owner; a new one is created with `perm`, owned by
      the writing process (`uid`, `gid`). */
  function WriteFile(fs: Fs, p: string, content: string, perm: nat, uid: int, gid: int): (r: Fs)
    ensures p in r && r[p].content == content
    ensures p in fs ==> r[p] == fs[p].(content := content)
    ensures p !in fs ==> r[p] == FileInfo(content, perm, uid, gid)
    ensures forall q :: q != p ==> (q in r <==> q in fs) && (q in r ==> r[q] == fs[q])
  {
    if p in fs then fs[p := fs[p].(content := content)] else fs[p := FileInfo(content, perm, uid, gid)]
  }

  /** Two filesystems agree everywhere except possibly at the given paths. */
  ghost predicate SameExcept(a: Fs, b: Fs, paths: set<string>) {
    forall q :: q !in paths ==> (q in a <==> q in b) && (q in a ==> a[q] == b[q])
  }
}

=== FILE: numbers.dfy ===
/** The two number parsers the resource code calls: `strconv.ParseUint(mode, 0, 32)` for the
    permission string and `strconv.Atoi` for looked-up user and group ids. */
module Numbers {
  import opened Digits
  import opened Outcomes

  const MaxUint32: nat := 0xFFFF_FFFF
  const MinInt64: int := -0x8000_0000_0000_0000
  const MaxInt64: int := 0x7FFF_FFFF_FFFF_FFFF

  /** The base chosen by a base-0 parse and the digits that follow the base prefix. */
  datatype Radix = Radix(base: nat, body: string)

  /** Base selection of a base-0 parse: "0b", "0o" and "0x" (any case, with at least one
      more character) select 2, 8 and 16; any other leading '0' selects 8 and is itself
      dropped; everything else is decimal. */
  function SplitRadix(s: string): (r: Radix)
    requires |s| > 0
    ensures r.base in {2, 8, 10, 16}
    ensures r.base == 10 <==> s[0] != '0'
    ensures |r.body| <= |s| && s[|s| - |r.body|..] == r.body
  {
    if s[0] == '0' then
      if |s| >= 3 && Lower(s[1]) == 'b' then Radix(2, s[2..])
      else if |s| >= 3 && Lower(s[1]) == 'o' then Radix(8, s[2..])
      else if |s| >= 3 && Lower(s[1]) == 'x' then Radix(16, s[2..])
      else Radix(8, s[1..])
    else Radix(10, s)
  }

  /** Every character is a digit of the base or a '_' separator. */
  predicate ValidBody(body: string, base: nat) {
    forall i :: 0 <= i < |body| ==> body[i] == '_' || IsDigitIn(body[i], base)
  }

  /** The digits with the '_' separators dropped. */
  function Unseparated(s: string): (r: string)
    ensures |r| <= |s|
    ensures '_' !in s ==> r == s
  {
    if |s| == 0 then []
    else Unseparated(s[..|s| - 1]) + (if s[|s| - 1] == '_' then [] else [s[|s| - 1]])
  }

  /** What the separator rule of strconv counts as a digit. */
  predicate IsSeparatorDigit(c: char, hex: bool) {
    '0' <= c <= '9' || (hex && 'a' <= Lower(c) <= 'f')
  }

  function SignStripped(s: string): string {
    if |s| >= 1 && (s[0] == '-' || s[0] == '+') then s[1..] else s
  }

  predicate HasBasePrefix(t: string) {
    |t| >= 2 && t[0] == '0' && (Lower(t[1]) == 'b' || Lower(t[1]) == 'o' || Lower(t[1]) == 'x')
  }

  /** The separator rule for the character at `j` of the sign-stripped text `t` whose digits
      start at `start`: a '_' there directly follows a digit (or the base prefix) and
      directly precedes a digit. */
  predicate SeparatorPlaced(t: string, start: nat, hex: bool, j: nat)
    requires start <= j < |t|
  {
    t[j] == '_' ==>
      && (if j > start then IsSeparatorDigit(t[j - 1], hex) else start == 2)
      && j + 1 < |t| && IsSeparatorDigit(t[j + 1], hex)
  }

  /** Where the digits of a sign-stripped number start: after a base prefix, if any. */
  function DigitsStart(t: string): nat {
    if HasBasePrefix(t) then 2 else 0
  }

  predicate IsHexText(t: string) {
    HasBasePrefix(t) && Lower(t[1]) == 'x'
  }

  predicate AllSeparatorsPlaced(t: string, start: nat, hex: bool) {
    forall j :: start <= j < |t| ==> SeparatorPlaced(t, start, hex, j)
  }

  /** The strconv separator rule for a whole number: after an optional sign and base
      prefix, every '_' is placed between two digits. */
  predicate UnderscoresOK(s: string) {
    var t := SignStripped(s);
    AllSeparatorsPlaced(t, DigitsStart(t), IsHexText(t))
  }

  /** `strconv.ParseUint(s, 0, 32)`: the number written in `s` with its base taken from the
      prefix, or an error when `s` is empty, holds a character that is not a digit of that
      base, misplaces a '_' separator, or denotes a number that does not fit in 32 bits. */
  function ParseMode(s: string): (r: Result<nat>)
    ensures r.Ok? ==> r.value <= MaxUint32
    ensures r.Ok? ==> |s| > 0 && ValidBody(SplitRadix(s).body, SplitRadix(s).base)
    ensures r.Err? ==> r.error == InvalidMode(s)
  {
    if s == "" then Err(InvalidMode(s))
    else
      var rad := SplitRadix(s);
      if !ValidBody(rad.body, rad.base) then Err(InvalidMode(s))
      else if '_' in rad.body && !UnderscoresOK(s) then Err(InvalidMode(s))
      else
        var v := Value(Unseparated(rad.body), rad.base);
        if v > MaxUint32 then Err(InvalidMode(s)) else Ok(v)
  }

  /** Appending one digit character shifts the value by one place. */
  lemma ValueAppend(u: string, c: char, base: nat)
    ensures Value(u + [c], base) == Shift(Value(u, base), base, DigitValue(c))
  {
    assert (u + [c])[..|u|] == u;
  }

  lemma MulAtLeast(a: nat, b: nat)
    requires b >= 1
    ensures a * b >= a
  {
  }

  /** Dropping separators commutes with extending the string by one character. */
  lemma UnseparatedAppend(s: string, j: nat)
    requires j < |s|
    ensures Unseparated(s[..j + 1]) ==
      Unseparated(s[..j]) + (if s[j] == '_' then [] else [s[j]])
  {
    assert s[..j + 1][..j] == s[..j];
  }

  /** A digit can only make the number larger, so a value past the limit stays past it. */
  lemma {:induction false} PrefixValueBound(s: string, j: nat, base: nat)
    requires j <= |s| && base >= 1
    ensures Value(Unseparated(s[..j]), base) <= Value(Unseparated(s), base)
    decreases |s| - j
  {
    if j < |s| {
      PrefixValueBound(s, j + 1, base);
      UnseparatedAppend(s, j);
      var u := Unseparated(s[..j]);
      if s[j] != '_' {
        assert Unseparated(s[..j + 1]) == u + [s[j]];
        ValueAppend(u, s[j], base);
        MulAtLeast(Value(u, base), base);
      } else {
        assert Unseparated(s[..j + 1]) == u;
      }
    } else {
      assert s[..j] == s;
    }
  }

  /** How the digit loop of ParseUint ends. */
  datatype Scan = Scanned(n: nat, underscores: bool) | BadDigit | TooLarge

  /** One more character of the digit loop: a separator leaves the value alone, a digit
      shifts it by one place. */
  lemma ScanStep(body: string, base: nat, i: nat)
    requires i < |body| && ValidBody(body[..i], base)
    requires body[i] == '_' || IsDigitIn(body[i], base)
    ensures ValidBody(body[..i + 1], base)
    ensures ('_' in body[..i + 1]) <==> ('_' in body[..i] || body[i] == '_')
    ensures Value(Unseparated(body[..i + 1]), base) ==
      if body[i] == '_' then Value(Unseparated(body[..i]), base)
      else Shift(Value(Unseparated(body[..i]), base), base, DigitValue(body[i]))
  {
    ValidBodyStep(body, base, i);
    assert body[..i + 1] == body[..i] + [body[i]];
    ValueStep(body, base, i);
  }

  lemma ValidBodyStep(body: string, base: nat, i: nat)
    requires i < |body| && ValidBody(body[..i], base)
    requires body[i] == '_' || IsDigitIn(body[i], base)
    ensures ValidBody(body[..i + 1], base)
  {
    var v := body[..i + 1];
    forall j | 0 <= j < |v|
      ensures v[j] == '_' || IsDigitIn(v[j], base)
    {
      if j < i {
        assert v[j] == body[..i][j];
      }
    }
  }

  lemma ValueStep(body: string, base: nat, i: nat)
    requires i < |body|
    ensures Value(Unseparated(body[..i + 1]), base) ==
      if body[i] == '_' then Value(Unseparated(body[..i]), base)
      else Shift(Value(Unseparated(body[..i]), base), base, DigitValue(body[i]))
  {
    UnseparatedAppend(body, i);
    if body[i] != '_' {
      assert Unseparated(body[..i + 1]) == Unseparated(body[..i]) + [body[i]];
      ValueAppend(Unseparated(body[..i]), body[i], base);
    } else {
      assert Unseparated(body[..i + 1]) == Unseparated(body[..i]);
    }
  }

  /** The running value with one more digit appended. */
  function Shift(n: nat, base: nat, d: nat): nat {
    n * base + d
  }

  /** A digit of the loop: the running value shifts by one place, and once it passes 32 bits
      the whole body's value does too. */
  lemma DigitStep(body: string, base: nat, i: nat, n: nat, n1: nat)
    requires i < |body| && ValidBody(body[..i], base)
    requires body[i] != '_' && IsDigitIn(body[i], base)
    requires n == Value(Unseparated(body[..i]), base) && n1 == Shift(n, base, DigitValue(body[i]))
    ensures ValidBody(body[..i + 1], base) && n1 == Value(Unseparated(body[..i + 1]), base)
    ensures ('_' in body[..i + 1]) <==> ('_' in body[..i])
    ensures n1 > MaxUint32 ==> Value(Unseparated(body), base) > MaxUint32
  {
    ScanStep(body, base, i);
    if n1 > MaxUint32 {
      PrefixValueBound(body, i + 1, base);
    }
  }

  lemma NotDigitAt(body: string, base: nat, i: nat)
    requires i < |body| && body[i] != '_' && !IsDigitIn(body[i], base)
    ensures !ValidBody(body, base)
  {
  }

  /** The digit loop of strconv.ParseUint for bit size 32. The uint64 overflow guards of
      strconv's loop are dropped: the running value never exceeds 2^32 - 1, so multiplying
      it by a base of at most 16 cannot wrap. */
  method ScanDigits(body: string, base: nat) returns (r: Scan)
    requires base >= 1
    ensures r.Scanned? ==> && ValidBody(body, base)
                           && r.n == Value(Unseparated(body), base) && r.n <= MaxUint32
                           && (r.underscores <==> '_' in body)
    ensures r.BadDigit? ==> !ValidBody(body, base)
    ensures r.TooLarge? ==> Value(Unseparated(body), base) > MaxUint32
  {
    var n: nat := 0;
    var underscores := false;
    var i := 0;
    while i < |body|
      invariant 0 <= i <= |body|
      invariant ValidBody(body[..i], base)
      invariant n == Value(Unseparated(body[..i]), base)
      invariant n <= MaxUint32
      invariant underscores <==> '_' in body[..i]
    {
      var c := body[i];
      if c != '_' && DigitValue(c) >= base {
        NotDigitAt(body, base, i);
        return BadDigit;
      }
      if c == '_' {
        ScanStep(body, base, i);
        underscores := true;
      } else {
        var n1 := Shift(n, base, DigitValue(c));
        DigitStep(body, base, i, n, n1);
        if n1 > MaxUint32 {
          return TooLarge;
        }
        n := n1;
      }
      i := i + 1;
    }
    assert body[..i] == body;
    return Scanned(n, underscores);
  }

  /** strconv.ParseUint(s, 0, 32) as strconv's code computes it: base from the prefix, the
      digit loop, then the separator scan when the loop met a '_'. */
  method ParseUint(s: string) returns (r: Result<nat>)
    ensures r == ParseMode(s)
  {
    if s == "" {
      return Err(InvalidMode(s));
    }
    var rad := SplitRadix(s);
    var scan := ScanDigits(rad.body, rad.base);
    if !scan.Scanned? {
      return Err(InvalidMode(s));
    }
    if scan.underscores {
      var ok := UnderscoreOK(s);
      if !ok {
        return Err(InvalidMode(s));
      }
    }
    return Ok(scan.n);
  }

  /** The class of the character the separator scan saw last. */
  datatype Saw = Beginning | Digit | Underscore | Other

  /** The separator scan of strconv (`underscoreOK`), as a state machine over the characters. */
  method UnderscoreOK(s: string) returns (ok: bool)
    ensures ok == UnderscoresOK(s)
  {
    var t := SignStripped(s);
    var start := DigitsStart(t);
    var hex := IsHexText(t);
    var saw := if start == 2 then Digit else Beginning;
    var i := start;
    while i < |t|
      invariant start <= i <= |t|
      invariant i == start ==> saw == (if start == 2 then Digit else Beginning)
      invariant i > start ==> saw == (if IsSeparatorDigit(t[i - 1], hex) then Digit
                                     else if t[i - 1] == '_' then Underscore else Other)
      invariant forall j :: start <= j < i - 1 ==> SeparatorPlaced(t, start, hex, j)
      invariant i > start && t[i - 1] == '_' ==>
        (if i - 1 > start then IsSeparatorDigit(t[i - 2], hex) else start == 2)
    {
      if IsSeparatorDigit(t[i], hex) {
        saw := Digit;
      } else if t[i] == '_' {
        if saw != Digit {
          assert !SeparatorPlaced(t, start, hex, i);
          return false;
        }
        saw := Underscore;
      } else {
        if saw == Underscore {
          assert !SeparatorPlaced(t, start, hex, i - 1);
          return false;
        }
        saw := Other;
      }
      assert i > start ==> SeparatorPlaced(t, start, hex, i - 1);
      i := i + 1;
    }
    if saw == Underscore {
      assert !SeparatorPlaced(t, start, hex, |t| - 1);
      return false;
    }
    assert |t| > start ==> SeparatorPlaced(t, start, hex, |t| - 1);
    return true;
  }

  /** A body of digits, with no separator, whose base the prefix selects parses to its value
      when that fits in 32 bits and is refused otherwise. */
  lemma ParseDigitsBody(s: string, f: string, base: nat)
    requires |s| > 0 && SplitRadix(s) == Radix(base, f) && AllDigitsIn(f, base)
    ensures ParseMode(s) == if Value(f, base) <= MaxUint32 then Ok(Value(f, base)) else Err(InvalidMode(s))
  {
    assert '_' !in f by {
      forall i | 0 <= i < |f| ensures f[i] != '_' {
        assert IsDigitIn(f[i], base);
      }
    }
  }

  /** "0" followed by octal digits selects base 8 and leaves the digits as the body. */
  lemma OctalSplit(n: nat) returns (f: string)
    ensures f == Format(n, 8) && AllDigitsIn(f, 8) && Value(f, 8) == n
    ensures SplitRadix("0" + f) == Radix(8, f)
  {
    f := Format(n, 8);
    FormatRoundTrip(n, 8);
    var s := "0" + f;
    assert s[1..] == f;
    assert DigitValue(f[0]) < 8;
  }

  /** A mode written the conventional way, "0" followed by octal digits, reads back as its value. */
  lemma OctalModeRoundTrip(n: nat)
    requires n <= MaxUint32
    ensures ParseMode("0" + Format(n, 8)) == Ok(n)
  {
    var f := OctalSplit(n);
    ParseDigitsBody("0" + f, f, 8);
  }

  /** "0x" followed by hexadecimal digits reads back as its value. */
  lemma HexModeRoundTrip(n: nat)
    requires n <= MaxUint32
    ensures ParseMode("0x" + Format(n, 16)) == Ok(n)
  {
    var f := Format(n, 16);
    FormatRoundTrip(n, 16);
    var s := "0x" + f;
    assert s[2..] == f;
    assert SplitRadix(s) == Radix(16, f);
    ParseDigitsBody(s, f, 16);
  }

  /** Without a leading '0' the mode is decimal: "644" is 644, not the 420 of "0644". */
  lemma DecimalModeRoundTrip(n: nat)
    requires 0 < n <= MaxUint32
    ensures ParseMode(Format(n, 10)) == Ok(n)
  {
    var f := Format(n, 10);
    FormatRoundTrip(n, 10);
    assert SplitRadix(f) == Radix(10, f);
    ParseDigitsBody(f, f, 10);
  }

  /** Octal numbers past 32 bits are refused rather than truncated. */
  lemma OctalModeOutOfRange(n: nat)
    requires n > MaxUint32
    ensures ParseMode("0" + Format(n, 8)).Err?
  {
    var f := OctalSplit(n);
    ParseDigitsBody("0" + f, f, 8);
  }

  /** Any character of `s` past the base prefix that is neither `_` nor a digit of the base
      makes the whole mode string invalid. */
  lemma NonDigitRefused(s: string, k: nat)
    requires |s| > 0 && |s| - |SplitRadix(s).body| <= k < |s|
    requires s[k] != '_' && !IsDigitIn(s[k], SplitRadix(s).base)
    ensures ParseMode(s) == Err(InvalidMode(s))
  {
  }

  /** A character that is neither an ASCII letter, a decimal digit nor '_' makes the mode
      unparsable wherever it stands: it cannot belong to a base prefix, and it is a digit
      of no base. */
  lemma StrayCharacterRefused(s: string, k: nat)
    requires k < |s| && s[k] != '_' && DigitValue(s[k]) == 36
    ensures ParseMode(s) == Err(InvalidMode(s))
  {
    NonDigitRefused(s, k);
  }

  /** `strconv.Atoi` on a 64-bit platform: an optional sign followed by at least one decimal
      digit, in the range of int64. */
  function Atoi(s: string): (r: Result<int>)
    ensures r.Ok? ==> MinInt64 <= r.value <= MaxInt64
    ensures r.Ok? ==> |s| > 0
    ensures r.Err? ==> r.error == IdConversionFailed(s)
  {
    var signed := |s| >= 1 && (s[0] == '+' || s[0] == '-');
    var digits := if signed then s[1..] else s;
    if |digits| == 0 || exists i :: 0 <= i < |digits| && !IsDigitIn(digits[i], 10) then
      Err(IdConversionFailed(s))
    else
      var magnitude := Value(digits, 10);
      var v: int := if signed && s[0] == '-' then -(magnitude as int) else magnitude;
      if v < MinInt64 || v > MaxInt64 then Err(IdConversionFailed(s)) else Ok(v)
  }

  /** `strconv.Itoa`: decimal, with a '-' for negative numbers. */
  function Itoa(n: int): string {
    if n < 0 then "-" + Format(-n, 10) else Format(n, 10)
  }

  lemma AtoiNonNegative(n: nat)
    requires n <= MaxInt64
    ensures Atoi(Format(n, 10)) == Ok(n)
  {
    var f := Format(n, 10);
    FormatRoundTrip(n, 10);
    assert DigitValue(f[0]) < 10;
    assert !exists i :: 0 <= i < |f| && !IsDigitIn(f[i], 10);
  }

  lemma AtoiNegative(n: nat)
    requires 0 < n <= -MinInt64
    ensures Atoi("-" + Format(n, 10)) == Ok(-(n as int))
  {
    var f := Format(n, 10);
    FormatRoundTrip(n, 10);
    var s := "-" + f;
    assert s[0] == '-' && s[1..] == f;
    assert !exists i :: 0 <= i < |f| && !IsDigitIn(f[i], 10);
  }

  /** Every int64 survives a trip through its decimal text. */
  lemma AtoiRoundTrip(n: int)
    requires MinInt64 <= n <= MaxInt64
    ensures Atoi(Itoa(n)) == Ok(n)
  {
    if n < 0 {
      AtoiNegative(-n);
    } else {
      AtoiNonNegative(n);
    }
  }
}

=== FILE: outcomes.dfy ===
/** Failure-compatible wrappers and the error vocabulary of the resource pipeline. */
module Outcomes {

  datatype Option<+T> = None | Some(value: T)

  /** What can go wrong while building or processing a template resource.
      Each constructor stands for one `return ..., err` site of the resource code. */
  datatype Error =
    | NoStoreClient                    // construction without a backend client
    | DescriptorError(detail: string)  // the TOML descriptor could not be decoded
    | EmptySrc                         // the descriptor names no source template
    | OwnerLookupFailed(owner: string)
    | GroupLookupFailed(group: string)
    | IdConversionFailed(text: string) // a looked-up id is not a decimal integer
    | InvalidMode(mode: string)        // the mode string is not an unsigned 32-bit number
    | BackendError(detail: string)
    | MissingTemplate(path: string)
    | TemplateSyntaxError(detail: string)
    | TempFileFailed(detail: string)
    | TemplateRenderError(detail: string)
    | CheckFailed(detail: string)
    | RenameFailed(detail: string)
    | ReadFailed(detail: string)       // the busy fallback could not read the staged file
    | WriteFailed(detail: string)
    | ReloadFailed(detail: string)

  datatype Result<+T> = Ok(value: T) | Err(error: Error) {

    predicate IsFailure() {
      Err?
    }

    function PropagateFailure<U>(): Result<U>
      requires Err?
    {
      Err(error)
    }

    function Extract(): T
      requires Ok?
    {
      value
    }
  }
}

=== FILE: paths.dfy ===
/** Slash-separated path names as Go's `path` and (on Unix) `path/filepath` packages treat
    them: Clean, Join, Dir and Base, plus the string prefix helpers of `strings`. */
module Paths {

  predicate HasPrefix(s: string, prefix: string) {
    |prefix| <= |s| && s[..|prefix|] == prefix
  }

  /** `strings.TrimPrefix`: `s` without the leading `prefix`, or `s` itself when it does not
      start with `prefix`. */
  function TrimPrefix(s: string, prefix: string): (r: string)
    ensures HasPrefix(s, prefix) ==> prefix + r == s
    ensures !HasPrefix(s, prefix) ==> r == s
  {
    if HasPrefix(s, prefix) then s[|prefix|..] else s
  }

  /** The pieces between the slashes: "a//b" splits into ["a", "", "b"] and "/a" into ["", "a"]. */
  function Split(p: string): (segs: seq<string>)
    ensures |segs| >= 1
    ensures forall i :: 0 <= i < |segs| ==> '/' !in segs[i]
  {
    if |p| == 0 then [""]
    else
      var rest := Split(p[1..]);
      if p[0] == '/' then [""] + rest else [[p[0]] + rest[0]] + rest[1..]
  }

  /** The inverse of Split: segments glued with '/'. */
  function Joined(segs: seq<string>): string {
    if |segs| == 0 then ""
    else if |segs| == 1 then segs[0]
    else segs[0] + "/" + Joined(segs[1..])
  }

  /** A segment that survives cleaning unchanged. */
  predicate Ordinary(seg: string) {
    seg != "" && seg != "." && seg != ".." && '/' !in seg
  }

  /** The shape of a cleaned path's segments: ordinary names, preceded (only in a relative
      path) by ".." segments that could not be resolved. */
  predicate Canonical(stack: seq<string>, rooted: bool) {
    && (forall i :: 0 <= i < |stack| ==> Ordinary(stack[i]) || (!rooted && stack[i] == ".."))
    && (forall i, j :: 0 <= i < j < |stack| && stack[j] == ".." ==> stack[i] == "..")
  }

  /** One segment of the cleaning pass: empty and "." segments vanish, ".." removes the
      previous name (or is dropped at the root, or kept in front of a relative path). */
  function Step(stack: seq<string>, seg: string, rooted: bool): seq<string> {
    if seg == "" || seg == "." then stack
    else if seg == ".." then
      if |stack| > 0 && stack[|stack| - 1] != ".." then stack[..|stack| - 1]
      else if rooted then stack
      else stack + [".."]
    else stack + [seg]
  }

  function Normalize(stack: seq<string>, segs: seq<string>, rooted: bool): seq<string>
    decreases |segs|
  {
    if |segs| == 0 then stack else Normalize(Step(stack, segs[0], rooted), segs[1..], rooted)
  }

  function Render(stack: seq<string>, rooted: bool): string {
    var r := if rooted then "/" + Joined(stack) else Joined(stack);
    if r == "" then "." else r
  }

  predicate IsRooted(p: string) {
    |p| > 0 && p[0] == '/'
  }

  /** `path.Clean`: the shortest equivalent name, with runs of slashes collapsed, "." removed,
      ".." resolved against the preceding name, and "." for the empty result. */
  function Clean(p: string): (r: string)
    ensures r != ""
    ensures IsRooted(r) <==> IsRooted(p)
  {
    if p == "" then "."
    else
      var rooted := p[0] == '/';
      var st := Normalize([], Split(p), rooted);
      var body := Joined(st);
      assert body != "" ==> body[0] != '/' by {
        if body != "" {
          NormalizeCanonical([], Split(p), rooted);
          JoinedHead(st);
        }
      }
      Render(st, rooted)
  }

  /** `filepath.Join(a, b)` (also `path.Join`): the non-empty arguments glued with '/', then
      cleaned; "" when both are empty. */
  function Join(a: string, b: string): (r: string)
    ensures r == "" <==> a == "" && b == ""
    ensures a != "" ==> (IsRooted(r) <==> IsRooted(a))
    ensures a == "" ==> (IsRooted(r) <==> IsRooted(b))
  {
    if a == "" then
      (if b == "" then "" else Clean(b))
    else
      Clean(a + "/" + b)
  }

  /** Index of the last '/' of `p`, or -1. */
  function LastSlash(p: string): (i: int)
    ensures -1 <= i < |p|
    ensures i >= 0 ==> p[i] == '/'
    ensures forall k :: i < k < |p| ==> p[k] != '/'
  {
    if |p| == 0 then -1
    else if p[|p| - 1] == '/' then |p| - 1
    else LastSlash(p[..|p| - 1])
  }

  /** `filepath.Dir`: everything up to the last slash, cleaned. */
  function Dir(p: string): (r: string)
    ensures r != "" && Clean(r) == r
    ensures IsRooted(r) <==> IsRooted(p)
    ensures '/' !in p ==> r == "."
  {
    var q := p[..LastSlash(p) + 1];
    assert q != "" ==> q[0] == p[0];
    CleanIdempotent(q);
    Clean(q)
  }

  /** `filepath.Base`: the last element after trailing slashes are dropped; "." for the
      empty path and "/" for a path of slashes only. */
  function Base(p: string): (r: string)
    ensures r != ""
    ensures r == "/" || '/' !in r
    ensures p != "" && '/' !in p ==> r == p
  {
    if p == "" then "."
    else
      var q := TrimTrailingSlashes(p);
      if q == "" then "/" else q[LastSlash(q) + 1..]
  }

  function TrimTrailingSlashes(p: string): (q: string)
    ensures |q| <= |p| && q == p[..|q|]
    ensures q == "" || q[|q| - 1] != '/'
  {
    if |p| > 0 && p[|p| - 1] == '/' then TrimTrailingSlashes(p[..|p| - 1]) else p
  }

  // ---------------------------------------------------------------------------------------
  // Split and Joined

  lemma SplitNoSlash(a: string)
    requires '/' !in a
    ensures Split(a) == [a]
  {
    if |a| > 0 {
      SplitNoSlash(a[1..]);
      assert [a[0]] + a[1..] == a;
    }
  }

  /** A slash separates the segments of what precedes it from those of what follows it. */
  lemma {:induction false} SplitAtSlash(x: string, y: string)
    ensures Split(x + "/" + y) == Split(x) + Split(y)
    decreases |x|
  {
    if |x| == 0 {
      assert x + "/" + y == "/" + y;
      assert ("/" + y)[1..] == y;
    } else {
      var p := x + "/" + y;
      assert p[0] == x[0];
      assert p[1..] == x[1..] + "/" + y;
      SplitAtSlash(x[1..], y);
    }
  }

  lemma {:induction false} SplitJoined(segs: seq<string>)
    requires |segs| >= 1
    requires forall i :: 0 <= i < |segs| ==> '/' !in segs[i]
    ensures Split(Joined(segs)) == segs
    decreases |segs|
  {
    if |segs| == 1 {
      SplitNoSlash(segs[0]);
    } else {
      SplitJoined(segs[1..]);
      SplitAtSlash(segs[0], Joined(segs[1..]));
      SplitNoSlash(segs[0]);
      assert [segs[0]] + segs[1..] == segs;
    }
  }

  lemma JoinedHead(segs: seq<string>)
    requires |segs| >= 1 && segs[0] != ""
    ensures Joined(segs) != "" && Joined(segs)[0] == segs[0][0]
  {
  }

  lemma {:induction false} JoinedAppend(segs: seq<string>, n: string)
    requires |segs| >= 1
    ensures Joined(segs + [n]) == Joined(segs) + "/" + n
    decreases |segs|
  {
    if |segs| > 1 {
      assert (segs + [n])[1..] == segs[1..] + [n];
      JoinedAppend(segs[1..], n);
    }
  }

  // ---------------------------------------------------------------------------------------
  // The cleaning pass

  lemma {:induction false} NormalizeConcat(acc: seq<string>, a: seq<string>, b: seq<string>, rooted: bool)
    ensures Normalize(acc, a + b, rooted) == Normalize(Normalize(acc, a, rooted), b, rooted)
    decreases |a|
  {
    if |a| > 0 {
      assert (a + b)[0] == a[0];
      assert (a + b)[1..] == a[1..] + b;
      NormalizeConcat(Step(acc, a[0], rooted), a[1..], b, rooted);
    } else {
      assert a + b == b;
    }
  }

  lemma StepCanonical(stack: seq<string>, seg: string, rooted: bool)
    requires Canonical(stack, rooted) && '/' !in seg
    ensures Canonical(Step(stack, seg, rooted), rooted)
  {
    if seg == ".." && !(|stack| > 0 && stack[|stack| - 1] != "..") && !rooted {
      var s := stack + [".."];
      forall i, j | 0 <= i < j < |s| && s[j] == ".."
        ensures s[i] == ".."
      {
        if j < |stack| {
          assert stack[j] == "..";
        } else if |stack| > 0 {
          assert stack[|stack| - 1] == "..";
          if i < |stack| - 1 {
            assert stack[i] == "..";
          }
        }
      }
    } else if seg != "" && seg != "." && seg != ".." {
      var s := stack + [seg];
      assert forall j :: 0 <= j < |s| && s[j] == ".." ==> j < |stack|;
    }
  }

  /** The cleaning pass only ever produces canonical segment lists. */
  lemma {:induction false} NormalizeCanonical(acc: seq<string>, segs: seq<string>, rooted: bool)
    requires Canonical(acc, rooted)
    requires forall i :: 0 <= i < |segs| ==> '/' !in segs[i]
    ensures Canonical(Normalize(acc, segs, rooted), rooted)
    decreases |segs|
  {
    if |segs| > 0 {
      StepCanonical(acc, segs[0], rooted);
      NormalizeCanonical(Step(acc, segs[0], rooted), segs[1..], rooted);
    }
  }

  /** Segments that are already canonical pass through the cleaning pass unchanged. */
  lemma {:induction false} NormalizeKeepsCanonical(acc: seq<string>, segs: seq<string>, rooted: bool)
    requires Canonical(acc + segs, rooted)
    ensures Normalize(acc, segs, rooted) == acc + segs
    decreases |segs|
  {
    if |segs| > 0 {
      var s := segs[0];
      assert (acc + segs)[|acc|] == s;
      if s == ".." {
        if |acc| > 0 {
          assert (acc + segs)[|acc| - 1] == "..";
        }
      }
      assert Step(acc, s, rooted) == acc + [s];
      assert (acc + [s]) + segs[1..] == acc + segs;
      NormalizeKeepsCanonical(acc + [s], segs[1..], rooted);
    } else {
      assert acc + segs == acc;
    }
  }

  /** A cleaned path splits back into its canonical segments. */
  lemma CleanShape(p: string)
    requires p != ""
    ensures var rooted := p[0] == '/';
            var st := Normalize([], Split(p), rooted);
            && Canonical(st, rooted)
            && Clean(p) == Render(st, rooted)
  {
    NormalizeCanonical([], Split(p), p[0] == '/');
  }

  lemma SegmentsSlashFree(st: seq<string>, rooted: bool)
    requires Canonical(st, rooted)
    ensures forall i :: 0 <= i < |st| ==> '/' !in st[i]
  {
    forall i | 0 <= i < |st| ensures '/' !in st[i] {
      assert Ordinary(st[i]) || st[i] == "..";
    }
  }

  lemma CleanRenderRooted(st: seq<string>)
    requires Canonical(st, true) && |st| > 0
    ensures Clean(Render(st, true)) == Render(st, true)
  {
    var q := Render(st, true);
    SegmentsSlashFree(st, true);
    SplitJoined(st);
    assert q == "/" + Joined(st);
    SplitRooted(Joined(st));
    assert Split(q) == [""] + st;
    NormalizeConcat([], [""], st, true);
    assert Normalize([], [""], true) == [];
    NormalizeKeepsCanonical([], st, true);
    assert [] + st == st;
  }

  lemma CleanRenderRelative(st: seq<string>)
    requires Canonical(st, false) && |st| > 0
    ensures Clean(Render(st, false)) == Render(st, false)
  {
    var q := Render(st, false);
    SegmentsSlashFree(st, false);
    SplitJoined(st);
    JoinedHead(st);
    assert q == Joined(st);
    assert st[0][0] in st[0];
    assert q[0] != '/';
    NormalizeKeepsCanonical([], st, false);
    assert [] + st == st;
  }

  /** Cleaning the rendering of canonical segments gives the same rendering back. */
  lemma CleanRender(st: seq<string>, rooted: bool)
    requires Canonical(st, rooted)
    ensures Clean(Render(st, rooted)) == Render(st, rooted)
  {
    if |st| == 0 {
      if rooted {
        assert Render(st, rooted) == "/";
        assert Split("/") == ["", ""];
        assert Normalize([], ["", ""], true) == [];
      } else {
        assert Render(st, rooted) == ".";
        SplitNoSlash(".");
        assert Normalize([], ["."], rooted) == [];
      }
    } else if rooted {
      CleanRenderRooted(st);
    } else {
      CleanRenderRelative(st);
    }
  }

  /** Clean is idempotent: a cleaned path is already clean. */
  lemma CleanIdempotent(p: string)
    ensures Clean(Clean(p)) == Clean(p)
  {
    if p != "" {
      CleanShape(p);
      CleanRender(Normalize([], Split(p), p[0] == '/'), p[0] == '/');
    } else {
      SplitNoSlash(".");
    }
  }

  lemma SplitRooted(t: string)
    ensures Split("/" + t) == [""] + Split(t)
  {
    assert ("/" + t)[1..] == t;
  }

  lemma DoubleRootSplit(t: string)
    ensures Split("/" + "/" + t) == ["", ""] + Split(t)
  {
    var u := "/" + t;
    SplitRooted(t);
    SplitRooted(u);
    assert "/" + "/" + t == "/" + u;
    assert [""] + ([""] + Split(t)) == ["", ""] + Split(t);
  }

  lemma NormalizeOrdinary(segs: seq<string>)
    requires forall i :: 0 <= i < |segs| ==> Ordinary(segs[i])
    ensures Normalize([], ["", ""] + segs, true) == segs
  {
    NormalizeConcat([], ["", ""], segs, true);
    assert Normalize([], ["", ""], true) == [];
    assert [] + segs == segs;
    NormalizeKeepsCanonical([], segs, true);
  }

  /** Rooting a relative name made of ordinary segments only prefixes it with '/':
      `path.Join("/", "db/host")` is "/db/host". */
  lemma JoinRootOrdinary(segs: seq<string>)
    requires |segs| >= 1
    requires forall i :: 0 <= i < |segs| ==> Ordinary(segs[i])
    ensures Join("/", Joined(segs)) == "/" + Joined(segs)
  {
    var p := "/" + "/" + Joined(segs);
    SplitJoined(segs);
    DoubleRootSplit(Joined(segs));
    NormalizeOrdinary(segs);
    assert p[0] == '/';
    assert Clean(p) == Render(segs, true);
  }

  // ---------------------------------------------------------------------------------------
  // Dir of a joined name

  lemma {:induction false} LastSlashAfter(x: string, n: string)
    requires '/' !in n
    ensures LastSlash(x + "/" + n) == |x|
    decreases |n|
  {
    if |n| > 0 {
      var p := x + "/" + n;
      assert p[..|p| - 1] == x + "/" + n[..|n| - 1];
      LastSlashAfter(x, n[..|n| - 1]);
    }
  }

  lemma LastSlashNone(n: string)
    requires '/' !in n
    ensures LastSlash(n) == -1
  {
  }

  /** Cleaning the rendering of canonical segments with one ordinary name appended appends
      the name to the rendering. */
  lemma JoinCanonical(st: seq<string>, rooted: bool, n: string)
    requires Canonical(st, rooted) && Ordinary(n)
    ensures Canonical(st + [n], rooted)
    ensures Join(Render(st, rooted), n) == Render(st + [n], rooted)
  {
    var d := Render(st, rooted);
    var s := st + [n];
    assert forall j :: 0 <= j < |s| && s[j] == ".." ==> j < |st|;
    CleanRender(st, rooted);
    var p := d + "/" + n;
    SplitAtSlash(d, n);
    SplitNoSlash(n);
    CleanShape(d);
    var rd := d[0] == '/';
    assert rd == rooted;
    assert Normalize([], Split(d), rooted) == st by {
      CleanRender(st, rooted);
      assert Render(Normalize([], Split(d), rooted), rooted) == d;
      RenderInjective(Normalize([], Split(d), rooted), st, rooted);
    }
    NormalizeConcat([], Split(d), [n], rooted);
    assert Normalize(st, [n], rooted) == st + [n];
  }

  /** Different canonical segment lists render differently. */
  lemma RenderInjective(a: seq<string>, b: seq<string>, rooted: bool)
    requires Canonical(a, rooted) && Canonical(b, rooted)
    requires Render(a, rooted) == Render(b, rooted)
    ensures a == b
  {
    forall i | 0 <= i < |a| ensures '/' !in a[i] { }
    forall i | 0 <= i < |b| ensures '/' !in b[i] { }
    if |a| == 0 || |b| == 0 {
      if |a| > 0 {
        JoinedHead(a);
      }
      if |b| > 0 {
        JoinedHead(b);
      }
    } else {
      JoinedHead(a);
      JoinedHead(b);
      var ra, rb := Render(a, rooted), Render(b, rooted);
      if rooted {
        assert ra == "/" + Joined(a) && rb == "/" + Joined(b);
        assert Joined(a) == ra[1..] && Joined(b) == rb[1..];
      } else {
        assert ra == Joined(a) && rb == Joined(b);
      }
      SplitJoined(a);
      SplitJoined(b);
    }
  }

  /** Every Dir result is the rendering of canonical segments. */
  lemma DirShape(p: string) returns (st: seq<string>, rooted: bool)
    ensures Canonical(st, rooted) && Dir(p) == Render(st, rooted)
  {
    var q := p[..LastSlash(p) + 1];
    if q == "" {
      st, rooted := [], false;
    } else {
      rooted := q[0] == '/';
      st := Normalize([], Split(q), rooted);
      CleanShape(q);
    }
  }

  /** Splitting a rendering and cleaning it again recovers the canonical segments. */
  lemma NormalizeRender(st: seq<string>, rooted: bool)
    requires Canonical(st, rooted)
    ensures var d := Render(st, rooted); Normalize([], Split(d), IsRooted(d)) == st
  {
    var d := Render(st, rooted);
    CleanRender(st, rooted);
    CleanShape(d);
    assert IsRooted(d) == rooted by {
      if |st| > 0 {
        JoinedHead(st);
      }
    }
    RenderInjective(Normalize([], Split(d), rooted), st, rooted);
  }

  /** A non-empty canonical rendering followed by a slash cleans back to itself. */
  lemma CleanTrailingSlash(st: seq<string>, rooted: bool)
    requires Canonical(st, rooted) && |st| > 0
    ensures var d := Render(st, rooted); Clean(d + "/") == d
  {
    var d := Render(st, rooted);
    JoinedHead(st);
    assert d + "/" == d + "/" + "";
    SplitAtSlash(d, "");
    NormalizeRender(st, rooted);
    NormalizeConcat([], Split(d), [""], rooted);
    assert (d + "/")[0] == d[0];
    CleanShape(d + "/");
  }

  /** The Dir of a rendering with one more ordinary name is the rendering without it. */
  lemma DirOfRendered(st: seq<string>, rooted: bool, n: string)
    requires Canonical(st, rooted) && Ordinary(n)
    ensures Dir(Render(st + [n], rooted)) == Render(st, rooted)
  {
    var j := Render(st + [n], rooted);
    if |st| == 0 {
      assert st + [n] == [n];
      if rooted {
        assert j == "" + "/" + n;
        LastSlashAfter("", n);
        assert j[..1] == "/";
        assert Split("/") == ["", ""];
        assert Normalize([], ["", ""], true) == [];
      } else {
        assert j == n;
        LastSlashNone(n);
      }
    } else {
      var d := Render(st, rooted);
      JoinedAppend(st, n);
      JoinedHead(st);
      assert j == d + "/" + n;
      LastSlashAfter(d, n);
      assert j[..|d| + 1] == d + "/";
      CleanTrailingSlash(st, rooted);
    }
  }

  /** A name joined onto a directory lies in that directory: `filepath.Dir(filepath.Join(d, n))`
      is `d` whenever `d` is itself a `filepath.Dir` result and `n` is a single ordinary name. */
  lemma DirOfJoin(p: string, n: string)
    requires Ordinary(n)
    ensures Dir(Join(Dir(p), n)) == Dir(p)
  {
    var st, rooted := DirShape(p);
    JoinCanonical(st, rooted, n);
    DirOfRendered(st, rooted, n);
  }

  /** The Base of a path ending in "/" and an ordinary name, or of the name alone, is the
      name. */
  lemma BaseOfNamed(x: string, n: string)
    requires Ordinary(n)
    ensures Base(x + "/" + n) == n && Base(n) == n
  {
    var j := x + "/" + n;
    assert j[|j| - 1] == n[|n| - 1] != '/';
    assert TrimTrailingSlashes(j) == j;
    LastSlashAfter(x, n);
    assert j[|x| + 1..] == n;
    assert TrimTrailingSlashes(n) == n;
    LastSlashNone(n);
  }

  lemma RenderSingleNamed(rooted: bool, n: string)
    requires Ordinary(n)
    ensures Render([n], rooted) == n || Render([n], rooted) == "" + "/" + n
  {
  }

  lemma RenderAppendNamed(st: seq<string>, rooted: bool, n: string)
    requires |st| >= 1 && st[0] != "" && Ordinary(n)
    ensures Render(st + [n], rooted) == Render(st, rooted) + "/" + n
  {
    JoinedAppend(st, n);
    JoinedHead(st);
  }

  /** A rendered path whose last segment is an ordinary name is that name, alone or after
      a slash. */
  lemma RenderNamedShape(st: seq<string>, rooted: bool, n: string) returns (x: string)
    requires Canonical(st, rooted) && Ordinary(n)
    ensures Render(st + [n], rooted) == n || Render(st + [n], rooted) == x + "/" + n
  {
    if |st| == 0 {
      assert st + [n] == [n];
      RenderSingleNamed(rooted, n);
      x := "";
    } else {
      assert st[0] != "";
      RenderAppendNamed(st, rooted, n);
      x := Render(st, rooted);
    }
  }

  /** A rendered path whose last segment is an ordinary name has that name as its Base. */
  lemma BaseOfRendered(st: seq<string>, rooted: bool, n: string)
    requires Canonical(st, rooted) && Ordinary(n)
    ensures Base(Render(st + [n], rooted)) == n
  {
    var x := RenderNamedShape(st, rooted, n);
    BaseOfNamed(x, n);
  }

  /** A name joined onto a `filepath.Dir` result is the Base of the joined path. */
  lemma BaseOfJoin(p: string, n: string)
    requires Ordinary(n)
    ensures Base(Join(Dir(p), n)) == n
  {
    var st, rooted := DirShape(p);
    JoinCanonical(st, rooted, n);
    BaseOfRendered(st, rooted, n);
  }

  /** Cleaning a path whose last segment is an ordinary name gives that name, alone or
      after a slash. */
  lemma CleanNamedShape(x: string, n: string) returns (y: string)
    requires Ordinary(n)
    ensures Clean(x + "/" + n) == n || Clean(x + "/" + n) == y + "/" + n
  {
    var p := x + "/" + n;
    var rooted := p[0] == '/';
    SplitAtSlash(x, n);
    SplitNoSlash(n);
    NormalizeConcat([], Split(x), [n], rooted);
    var st := Normalize([], Split(x), rooted);
    NormalizeCanonical([], Split(x), rooted);
    assert Normalize(st, [n], rooted) == st + [n];
    assert Clean(p) == Render(st + [n], rooted);
    y := RenderNamedShape(st, rooted, n);
  }

  /** Cleaning a path whose last segment is an ordinary name keeps that name at the end. */
  lemma CleanEndsWithName(x: string, n: string)
    requires Ordinary(n)
    ensures var c := Clean(x + "/" + n); |c| >= |n| && c[|c| - |n|..] == n
    ensures Base(Clean(x + "/" + n)) == n
  {
    var y := CleanNamedShape(x, n);
    var c := Clean(x + "/" + n);
    BaseOfNamed(y, n);
    if c != n {
      assert c[|c| - |n|..] == n;
    }
  }
}

=== FILE: pipeline.dfy ===
/** `process`: one pass of a resource through mode resolution, store loading, staging and
    syncing, stopping at the first error. */
module Pipeline {
  import opened Outcomes
  import opened Paths
  import opened FileSystem
  import opened Resource
  import opened Store
  import opened Stage
  import opened Syncing

  /** Everything a pass learns from outside the filesystem: the backend's answer, the
      template engine, the temporary file's random suffix, the change comparison, the
      shell, and what the filesystem reported for the commit. */
  datatype Oracles = Oracles(
    fetch: Fetch,
    render: (string, map<string, string>) -> Rendering,
    temp: TempOutcome,
    isChanged: (Fs, string, string) -> ChangeVerdict,
    run: string -> CommandOutcome,
    rename: RenameOutcome,
    write: WriteOutcome)

  /** The filesystem, the resource as the pass left it, the error returned, and the shell
      commands run. */
  datatype Processed = Processed(fs: Fs, res: TemplateResource, err: Option<Error>, ran: seq<Command>)

  /** The errors only `sync` returns; every other error stops the pass before it. */
  predicate FromSync(e: Error) {
    e.CheckFailed? || e.RenameFailed? || e.ReadFailed? || e.WriteFailed? || e.ReloadFailed?
  }

  /** The destination is as it was: present in both or absent in both, with the same
      content, mode and owner. */
  predicate DestUnchanged(before: Fs, after: Fs, dest: string) {
    (dest in before <==> dest in after) && (dest in before ==> before[dest] == after[dest])
  }

  /** A temporary file created fresh and then removed leaves nothing behind. */
  lemma RemoveFresh(fs: Fs, name: string, f: FileInfo)
    requires name !in fs
    ensures Remove(fs[name := f], name) == fs
  {
    assert Remove(fs[name := f], name).Keys == fs.Keys;
  }

  /** A fresh staged file that took the destination's place leaves the filesystem as if the
      destination had simply been replaced. */
  lemma CommittedShape(fs: Fs, after: Fs, name: string, dest: string, f: FileInfo)
    requires name !in fs && name != dest
    requires SameExcept(fs[name := f], after, {name, dest})
    requires name !in after && dest in after && after[dest] == f
    ensures after == fs[dest := f]
  {
    forall p ensures (p in after <==> p in fs[dest := f]) && (p in after ==> after[p] == fs[dest := f][p])
    {
      if p != name && p != dest {
        assert p !in {name, dest};
      }
    }
  }

  /** The `sync` step of a pass, seen from the filesystem as it was before staging:
      `staged` is the fresh file `CreateStageFile` added, holding `f`. */
  function SyncStaged(fs: Fs, res: TemplateResource, staged: string, f: FileInfo,
                      o: Oracles): (r: Processed)
    requires res.stageFile == Some(staged) && staged !in fs && staged != res.dest
    ensures r.res == res
    ensures r.err.None? || FromSync(r.err.value)
    ensures forall p :: p in fs && p != res.dest ==> p in r.fs && r.fs[p] == fs[p]
    ensures forall p :: p in r.fs && p !in fs ==> p == res.dest || (res.keepStageFile && p == staged)
    ensures res.noop || !o.isChanged(fs[staged := f], staged, res.dest).changed ==>
              r.err.None? && r.ran == [] && DestUnchanged(fs, r.fs, res.dest)
    ensures res.noop && !res.keepStageFile ==> r.fs == fs
    ensures res.syncOnly ==> r.ran == []
    ensures !DestUnchanged(fs, r.fs, res.dest) ==>
              && !res.noop
              && o.isChanged(fs[staged := f], staged, res.dest).changed
              && !CheckFails(res, staged, o.run)
              && (r.err.None? || !r.err.value.CheckFailed?)
    ensures r.err.None? && !DestUnchanged(fs, r.fs, res.dest) ==>
              && res.dest in r.fs && r.fs[res.dest].content == f.content
              && (o.rename.Renamed? ==> r.fs[res.dest] == f)
              && (o.rename.Busy? ==>
                    r.fs[res.dest] == FileInfo(f.content,
                                               if res.dest in fs then fs[res.dest].mode else res.fileMode,
                                               res.uid, res.gid))
  {
    var stagedFs := fs[staged := f];
    var s := Sync(stagedFs, res, o.isChanged(stagedFs, staged, res.dest), o.run, o.rename, o.write);
    assert res.noop && !res.keepStageFile ==> s.fs == fs by {
      if res.noop && !res.keepStageFile {
        RemoveFresh(fs, staged, f);
      }
    }
    Processed(s.fs, res, s.err, s.ran)
  }

  /** The validation gate: a changed staged file whose check command fails is reported, and
      the destination is left as it was; nothing but the check runs. */
  lemma SyncStagedCheckGate(fs: Fs, res: TemplateResource, staged: string, f: FileInfo, o: Oracles)
    requires res.stageFile == Some(staged) && staged !in fs && staged != res.dest
    requires !res.noop && o.isChanged(fs[staged := f], staged, res.dest).changed
    requires CheckFails(res, staged, o.run)
    ensures var r := SyncStaged(fs, res, staged, f, o);
            && r.err == Some(CheckFailed(o.run(CheckCommand(res.checkCmd, staged)).detail))
            && DestUnchanged(fs, r.fs, res.dest)
            && r.ran == [CheckRun(CheckCommand(res.checkCmd, staged))]
  {
  }

  /** The destination changes only through the commit: a commit that succeeded, or the busy
      fallback, whose chown reaches the destination even when the write failed. */
  lemma SyncStagedReachesCommit(fs: Fs, res: TemplateResource, staged: string, f: FileInfo, o: Oracles)
    requires res.stageFile == Some(staged) && staged !in fs && staged != res.dest
    ensures var r := SyncStaged(fs, res, staged, f, o);
            !DestUnchanged(fs, r.fs, res.dest) ==>
              || Commit(fs[staged := f], res, staged, o.rename, o.write).err.None?
              || (o.rename.Busy? && o.write.WriteError?)
  {
  }

  /** Progress: a changed staged file whose check passed (or was not configured) and whose
      commit succeeded is in the destination, and the pass fails only when the configured
      reload command fails. */
  lemma SyncStagedCommits(fs: Fs, res: TemplateResource, staged: string, f: FileInfo, o: Oracles)
    requires res.stageFile == Some(staged) && staged !in fs && staged != res.dest
    requires !res.noop && o.isChanged(fs[staged := f], staged, res.dest).changed
    requires !CheckFails(res, staged, o.run)
    requires Commit(fs[staged := f], res, staged, o.rename, o.write).err.None?
    ensures var r := SyncStaged(fs, res, staged, f, o);
            && res.dest in r.fs && r.fs[res.dest].content == f.content
            && (r.err.None? <==> res.syncOnly || res.reloadCmd == "" || o.run(res.reloadCmd).Succeeded?)
            && (r.err.Some? ==> r.err == Some(ReloadFailed(o.run(res.reloadCmd).detail)))
  {
  }

  /** Without check or reload commands, a changed staged file committed by rename simply
      takes the destination's place: no command runs and nothing else changes. */
  lemma RenameCommit(fs: Fs, res: TemplateResource, staged: string, f: FileInfo, o: Oracles)
    requires res.stageFile == Some(staged) && staged !in fs && staged != res.dest
    requires !res.noop && !res.keepStageFile && res.checkCmd == "" && res.reloadCmd == ""
    requires o.isChanged(fs[staged := f], staged, res.dest).changed && o.rename.Renamed?
    ensures SyncStaged(fs, res, staged, f, o) == Processed(fs[res.dest := f], res, None, [])
  {
    var r := SyncStaged(fs, res, staged, f, o);
    assert r.fs == fs[res.dest := f] by {
      forall p ensures (p in r.fs <==> p in fs[res.dest := f])
                       && (p in r.fs ==> r.fs[p] == fs[res.dest := f][p])
      {
        if p == staged {
          assert staged !in r.fs;
        }
      }
    }
  }

  /** The staging and sync steps of a pass, for a resource whose mode and store are
      already resolved. */
  function StageAndSync(fs: Fs, res: TemplateResource, o: Oracles): (r: Processed)
    ensures r.err.Some? && !FromSync(r.err.value) ==> r.fs == fs && r.ran == [] && r.res == res
    ensures forall p :: p in fs && p != res.dest ==> p in r.fs && r.fs[p] == fs[p]
    ensures forall p :: p in r.fs && p !in fs ==>
              p == res.dest || (res.keepStageFile && r.res.stageFile == Some(p))
    ensures res.noop ==> r.ran == [] && DestUnchanged(fs, r.fs, res.dest)
    ensures res.noop && !res.keepStageFile ==> r.fs == fs
    ensures res.syncOnly ==> r.ran == []
    ensures !DestUnchanged(fs, r.fs, res.dest) ==>
              && !res.noop && r.res.stageFile.Some?
              && (r.err.None? || r.err.value.RenameFailed? || r.err.value.ReadFailed? || r.err.value.WriteFailed?
                  || r.err.value.ReloadFailed?)
    ensures r.err.None? && !DestUnchanged(fs, r.fs, res.dest) ==>
              && res.src in fs
              && var rendering := o.render(fs[res.src].content, res.store);
                 && rendering.Rendered?
                 && res.dest in r.fs && r.fs[res.dest].content == rendering.text
                 && (o.rename.Renamed? ==>
                       r.fs[res.dest] == FileInfo(rendering.text, res.fileMode, res.uid, res.gid))
                 && (o.rename.Busy? ==>
                       r.fs[res.dest] == FileInfo(rendering.text,
                                                  if res.dest in fs then fs[res.dest].mode else res.fileMode,
                                                  res.uid, res.gid))
    ensures r.err.None? || FromSync(r.err.value) ==>
              && o.temp.TempCreated?
              && r.res == res.(stageFile := Some(TempName(res.dest, o.temp.suffix)))
  {
    var staging := CreateStageFile(fs, res, o.render, o.temp);
    if staging.err.Some? then Processed(staging.fs, staging.res, staging.err, [])
    else
      var staged := staging.res.stageFile.value;
      StagedIsNotDest(res.dest, o.temp.suffix);
      SyncStaged(fs, staging.res, staged, staging.fs[staged], o)
  }

  /** A pass whose staging succeeded syncs the fresh hidden sibling it staged. */
  lemma StagingFacts(fs: Fs, res: TemplateResource, o: Oracles) returns (name: string, f: FileInfo)
    requires CreateStageFile(fs, res, o.render, o.temp).err.None?
    ensures o.temp.TempCreated? && name == TempName(res.dest, o.temp.suffix)
    ensures name !in fs && name != res.dest
    ensures CreateStageFile(fs, res, o.render, o.temp).fs == fs[name := f]
    ensures StageAndSync(fs, res, o) == SyncStaged(fs, res.(stageFile := Some(name)), name, f, o)
  {
    var staging := CreateStageFile(fs, res, o.render, o.temp);
    name := TempName(res.dest, o.temp.suffix);
    StagedIsNotDest(res.dest, o.temp.suffix);
    f := staging.fs[name];
  }

  /** The destination changes only after the staged file was found to differ from it and
      its check passed (or is not configured). */
  lemma StageAndSyncReachesCommit(fs: Fs, res: TemplateResource, o: Oracles)
    ensures var r := StageAndSync(fs, res, o);
            !DestUnchanged(fs, r.fs, res.dest) ==>
              && r.res.stageFile.Some?
              && o.isChanged(CreateStageFile(fs, res, o.render, o.temp).fs, r.res.stageFile.value, res.dest).changed
              && !CheckFails(res, r.res.stageFile.value, o.run)
  {
    if CreateStageFile(fs, res, o.render, o.temp).err.None? {
      var name, f := StagingFacts(fs, res, o);
    }
  }

  /** The validation gate for a resource with mode and store resolved. */
  lemma StageAndSyncCheckGate(fs: Fs, res: TemplateResource, o: Oracles)
    ensures var r := StageAndSync(fs, res, o);
            o.temp.TempCreated? && CheckFails(res, TempName(res.dest, o.temp.suffix), o.run) ==>
              && DestUnchanged(fs, r.fs, res.dest)
              && (forall i :: 0 <= i < |r.ran| ==> r.ran[i].CheckRun?)
              && (r.err.Some? && FromSync(r.err.value) ==> r.err.value.CheckFailed?)
  {
    var staging := CreateStageFile(fs, res, o.render, o.temp);
    if staging.err.None? {
      var name, f := StagingFacts(fs, res, o);
      var staged := res.(stageFile := Some(name));
      if !res.noop && o.isChanged(fs[name := f], name, res.dest).changed && CheckFails(res, name, o.run) {
        SyncStagedCheckGate(fs, staged, name, f, o);
        var r := SyncStaged(fs, staged, name, f, o);
        assert r.ran == [CheckRun(CheckCommand(res.checkCmd, name))];
      }
    }
  }

  /** Progress for a resource with mode and store resolved: a changed staged file whose
      check passed is renamed into the destination's place. */
  lemma StageAndSyncCommitsOnRename(fs: Fs, res: TemplateResource, o: Oracles)
    ensures var r := StageAndSync(fs, res, o);
            var staged := CreateStageFile(fs, res, o.render, o.temp).fs;
            && (r.err.None? || FromSync(r.err.value)) && !res.noop && o.rename.Renamed?
            && r.res.stageFile.Some?
            && o.isChanged(staged, r.res.stageFile.value, res.dest).changed
            && !CheckFails(res, r.res.stageFile.value, o.run) ==>
              && r.res.stageFile.value in staged && res.dest in r.fs
              && r.fs[res.dest] == staged[r.res.stageFile.value]
              && (r.err.None? <==> res.syncOnly || res.reloadCmd == "" || o.run(res.reloadCmd).Succeeded?)
  {
    if CreateStageFile(fs, res, o.render, o.temp).err.None? {
      var name, f := StagingFacts(fs, res, o);
      if !res.noop && o.rename.Renamed? && o.isChanged(fs[name := f], name, res.dest).changed
         && !CheckFails(res, name, o.run) {
        SyncStagedCommits(fs, res.(stageFile := Some(name)), name, f, o);
      }
    }
  }

  /** The filesystem `sync` compares in a pass: the one staging left behind, or the one the
      pass started from when the pass stopped earlier. */
  function StagedView(fs: Fs, t: TemplateResource, o: Oracles): Fs {
    match SetFileMode(fs, t)
    case Err(_) => fs
    case Ok(moded) =>
      match SetVars(moded, o.fetch)
      case Err(_) => fs
      case Ok(loaded) => CreateStageFile(fs, loaded, o.render, o.temp).fs
  }

  /** `process`. */
  function Process(fs: Fs, t: TemplateResource, o: Oracles): (r: Processed)
    ensures t.mode != "" && Numbers.ParseMode(t.mode).Err? ==>
              r == Processed(fs, t, Some(InvalidMode(t.mode)), [])
    ensures SetFileMode(fs, t).Ok? && o.fetch.FetchFailed? ==>
              && r.err == Some(BackendError(o.fetch.detail))
              && r.res.store == t.store && r.fs == fs && r.ran == []
    ensures r.err.Some? && !FromSync(r.err.value) ==> r.fs == fs && r.ran == []
    ensures forall p :: p in fs && p != t.dest ==> p in r.fs && r.fs[p] == fs[p]
    ensures forall p :: p in r.fs && p !in fs ==>
              p == t.dest || (t.keepStageFile && r.res.stageFile == Some(p))
    ensures t.noop ==> r.ran == [] && DestUnchanged(fs, r.fs, t.dest)
    ensures t.noop && !t.keepStageFile ==> r.fs == fs
    ensures t.syncOnly ==> r.ran == []
  {
    match SetFileMode(fs, t)
    case Err(e) => Processed(fs, t, Some(e), [])
    case Ok(moded) =>
      match SetVars(moded, o.fetch)
      case Err(e) => Processed(fs, moded, Some(e), [])
      case Ok(loaded) => StageAndSync(fs, loaded, o)
  }

  /** `process` runs its steps in order and goes on after each success: once the mode and
      the store are resolved, a staging error is returned as it is, with nothing changed and
      no command run, and a successful staging hands its fresh hidden sibling to `sync`. */
  lemma ProcessReachesSync(fs: Fs, t: TemplateResource, o: Oracles)
    ensures SetFileMode(fs, t).Ok? && o.fetch.Fetched? ==>
      var loaded := SetVars(SetFileMode(fs, t).value, o.fetch).value;
      var staging := CreateStageFile(fs, loaded, o.render, o.temp);
      && (staging.err.Some? ==> Process(fs, t, o) == Processed(fs, loaded, staging.err, []))
      && (staging.err.None? ==>
            var name := TempName(t.dest, o.temp.suffix);
            && name !in fs && name != loaded.dest
            && Process(fs, t, o) == SyncStaged(fs, loaded.(stageFile := Some(name)), name, staging.fs[name], o))
  {
    if SetFileMode(fs, t).Ok? && o.fetch.Fetched? {
      var loaded := SetVars(SetFileMode(fs, t).value, o.fetch).value;
      assert Process(fs, t, o) == StageAndSync(fs, loaded, o);
      if CreateStageFile(fs, loaded, o.render, o.temp).err.None? {
        var name, f := StagingFacts(fs, loaded, o);
      }
    }
  }

  /** A pass that reaches `sync` resolved the mode as `setFileMode` does and staged into the
      destination's hidden sibling. */
  lemma ProcessStagesSibling(fs: Fs, t: TemplateResource, o: Oracles)
    ensures var r := Process(fs, t, o);
            r.err.None? || FromSync(r.err.value) ==>
              && SetFileMode(fs, t).Ok? && r.res.fileMode == SetFileMode(fs, t).value.fileMode
              && o.temp.TempCreated? && r.res.stageFile == Some(TempName(t.dest, o.temp.suffix))
  {
    if SetFileMode(fs, t).Ok? && SetVars(SetFileMode(fs, t).value, o.fetch).Ok? {
      var loaded := SetVars(SetFileMode(fs, t).value, o.fetch).value;
      assert Process(fs, t, o) == StageAndSync(fs, loaded, o);
    }
  }

  /** The destination changes only on a pass that was not a dry run, passed its check and
      reached the commit; the only errors such a pass can return are the commit's and the
      reload's. */
  lemma ProcessChangesDestOnCommit(fs: Fs, t: TemplateResource, o: Oracles)
    ensures var r := Process(fs, t, o);
            !DestUnchanged(fs, r.fs, t.dest) ==>
              && !t.noop && r.res.stageFile.Some?
              && (r.err.None? || r.err.value.RenameFailed? || r.err.value.ReadFailed? || r.err.value.WriteFailed?
                  || r.err.value.ReloadFailed?)
              && o.isChanged(StagedView(fs, t, o), r.res.stageFile.value, t.dest).changed
              && !CheckFails(t, r.res.stageFile.value, o.run)
  {
    if SetFileMode(fs, t).Ok? && SetVars(SetFileMode(fs, t).value, o.fetch).Ok? {
      var loaded := SetVars(SetFileMode(fs, t).value, o.fetch).value;
      assert Process(fs, t, o) == StageAndSync(fs, loaded, o);
      StageAndSyncReachesCommit(fs, loaded, o);
    }
  }

  /** The validation gate of a pass: when the check command fails on the staged file, the
      destination is left as it was, only the check runs, and the only error `sync` can
      return is the check's. */
  lemma ProcessCheckGate(fs: Fs, t: TemplateResource, o: Oracles)
    ensures var r := Process(fs, t, o);
            o.temp.TempCreated? && CheckFails(t, TempName(t.dest, o.temp.suffix), o.run) ==>
              && DestUnchanged(fs, r.fs, t.dest)
              && (forall i :: 0 <= i < |r.ran| ==> r.ran[i].CheckRun?)
              && (r.err.Some? && FromSync(r.err.value) ==> r.err.value.CheckFailed?)
  {
    var r := Process(fs, t, o);
    if SetFileMode(fs, t).Ok? && o.fetch.Fetched? {
      var loaded := SetVars(SetFileMode(fs, t).value, o.fetch).value;
      assert r == StageAndSync(fs, loaded, o);
      StageAndSyncCheckGate(fs, loaded, o);
    } else {
      assert r.fs == fs && r.ran == [];
    }
  }

  /** Progress of a pass: when the mode, the store and the staging succeed, the staged file
      differs from the destination, its check passed (or is not configured) and the
      filesystem accepts the rename, the staged file is in the destination's place, and the
      pass fails only when the reload command does. */
  lemma ProcessCommitsOnRename(fs: Fs, t: TemplateResource, o: Oracles)
    ensures SetFileMode(fs, t).Ok? && o.fetch.Fetched? ==>
      var loaded := SetVars(SetFileMode(fs, t).value, o.fetch).value;
      var staged := CreateStageFile(fs, loaded, o.render, o.temp).fs;
      StagingSucceeds(fs, loaded, o.render, o.temp) && !t.noop && o.rename.Renamed? ==>
        var name := TempName(t.dest, o.temp.suffix);
        var r := Process(fs, t, o);
        o.isChanged(staged, name, t.dest).changed && !CheckFails(t, name, o.run) ==>
          && r.res.stageFile == Some(name)
          && name in staged && t.dest in r.fs && r.fs[t.dest] == staged[name]
          && (r.err.None? <==> t.syncOnly || t.reloadCmd == "" || o.run(t.reloadCmd).Succeeded?)
  {
    if SetFileMode(fs, t).Ok? && o.fetch.Fetched? {
      var loaded := SetVars(SetFileMode(fs, t).value, o.fetch).value;
      ProcessReachesSync(fs, t, o);
      if CreateStageFile(fs, loaded, o.render, o.temp).err.None? {
        var name, f := StagingFacts(fs, loaded, o);
        assert Process(fs, t, o) == StageAndSync(fs, loaded, o);
        StageAndSyncCommitsOnRename(fs, loaded, o);
      }
    }
  }

  /** A successful pass that changed the destination left the rendered template in it: the
      template read from `src`, executed over the store loaded from the backend. A rename
      carries the resolved mode and the resource's owner; the busy fallback keeps an
      existing destination's mode. */
  lemma ProcessWritesRendering(fs: Fs, t: TemplateResource, o: Oracles)
    ensures var r := Process(fs, t, o);
            r.err.None? && !DestUnchanged(fs, r.fs, t.dest) ==>
              && t.src in fs && o.fetch.Fetched?
              && var rendering := o.render(fs[t.src].content, Load(o.fetch.pairs, t.prefix));
                 && rendering.Rendered?
                 && t.dest in r.fs && r.fs[t.dest].content == rendering.text
                 && (o.rename.Renamed? ==>
                       r.fs[t.dest] == FileInfo(rendering.text, r.res.fileMode, t.uid, t.gid))
                 && (o.rename.Busy? ==>
                       r.fs[t.dest] == FileInfo(rendering.text,
                                                if t.dest in fs then fs[t.dest].mode else r.res.fileMode,
                                                t.uid, t.gid))
  {
    if SetFileMode(fs, t).Ok? && SetVars(SetFileMode(fs, t).value, o.fetch).Ok? {
      var loaded := SetVars(SetFileMode(fs, t).value, o.fetch).value;
      assert Process(fs, t, o) == StageAndSync(fs, loaded, o);
    }
  }

  /** With no mode in the descriptor, a destination that is replaced by rename keeps the
      permission bits it had (0640 stays 0640), and takes the resource's owner. */
  lemma ModeInherited(fs: Fs, t: TemplateResource, o: Oracles)
    requires t.mode == "" && t.dest in fs && o.rename.Renamed?
    ensures var r := Process(fs, t, o);
            r.err.None? && !DestUnchanged(fs, r.fs, t.dest) ==>
              r.fs[t.dest] == fs[t.dest].(content := r.fs[t.dest].content, uid := t.uid, gid := t.gid)
  {
    ProcessWritesRendering(fs, t, o);
    ProcessStagesSibling(fs, t, o);
  }

  /** In the busy fallback an existing destination keeps its permission bits even when the
      descriptor names another mode; only content and owner change. */
  lemma BusyFallbackKeepsMode(fs: Fs, t: TemplateResource, o: Oracles)
    requires t.dest in fs && o.rename.Busy?
    ensures var r := Process(fs, t, o);
            r.err.None? && !DestUnchanged(fs, r.fs, t.dest) ==>
              r.fs[t.dest] == fs[t.dest].(content := r.fs[t.dest].content, uid := t.uid, gid := t.gid)
  {
    ProcessWritesRendering(fs, t, o);
    ProcessStagesSibling(fs, t, o);
  }

  /** A reference for `util.IsConfigChanged`, whose source is not part of this model, built
      from what `util.FileStat` collects: owner, group, mode and content (compared there by
      MD5 digest). A missing destination always differs; a missing staged file is reported
      as an error. */
  function ReferenceVerdict(fs: Fs, staged: string, dest: string): (v: ChangeVerdict)
    ensures !v.changed <==> staged in fs && dest in fs && fs[staged] == fs[dest]
    ensures v.err.Some? <==> dest in fs && staged !in fs
  {
    if dest !in fs then ChangeVerdict(true, None)
    else if staged !in fs then ChangeVerdict(true, Some("File not found"))
    else ChangeVerdict(fs[staged] != fs[dest], None)
  }

  /** The comparison of the utility tests: two files written with the same text by the same
      process are in sync; files with different text are not. */
  lemma ReferenceMatchesUtilTests(fs: Fs, a: string, b: string, mode: nat, uid: int, gid: int)
    requires a != b
    ensures ReferenceVerdict(fs[a := FileInfo("foo", mode, uid, gid)][b := FileInfo("foo", mode, uid, gid)], a, b)
            == ChangeVerdict(false, None)
    ensures ReferenceVerdict(fs[a := FileInfo("src", mode, uid, gid)][b := FileInfo("dest", mode, uid, gid)], a, b)
            == ChangeVerdict(true, None)
  {
  }

  /** How a pass that reached `sync` behaves, given what staging produced: the staged file
      `f` under `name`. */
  predicate StagedAs(fs: Fs, t: TemplateResource, o: Oracles, moded: TemplateResource,
                     loaded: TemplateResource, name: string, f: FileInfo)
  {
    && SetFileMode(fs, t) == Ok(moded) && SetVars(moded, o.fetch) == Ok(loaded)
    && CreateStageFile(fs, loaded, o.render, o.temp).err.None?
    && name == TempName(t.dest, o.temp.suffix) && name != t.dest && name !in fs
    && CreateStageFile(fs, loaded, o.render, o.temp).fs == fs[name := f]
  }

  /** The staging facts of a pass that returned no error. */
  lemma StagedOnSuccess(fs: Fs, t: TemplateResource, o: Oracles)
    returns (moded: TemplateResource, loaded: TemplateResource, name: string, f: FileInfo)
    requires Process(fs, t, o).err.None?
    ensures StagedAs(fs, t, o, moded, loaded, name, f)
    ensures Process(fs, t, o) == SyncStaged(fs, loaded.(stageFile := Some(name)), name, f, o)
  {
    ProcessStagesSibling(fs, t, o);
    moded := SetFileMode(fs, t).value;
    loaded := SetVars(moded, o.fetch).value;
    name := TempName(t.dest, o.temp.suffix);
    StagedIsNotDest(t.dest, o.temp.suffix);
    f := CreateStageFile(fs, loaded, o.render, o.temp).fs[name];
    assert Process(fs, t, o) == StageAndSync(fs, loaded, o);
  }

  /** A pass that found the staged file identical to the destination, or was a dry run,
      leaves the filesystem as it was and runs nothing. */
  lemma InSyncPassIsQuiet(fs: Fs, t: TemplateResource, o: Oracles, moded: TemplateResource,
                          loaded: TemplateResource, name: string, f: FileInfo)
    requires forall f, a, b :: o.isChanged(f, a, b) == ReferenceVerdict(f, a, b)
    requires !t.keepStageFile && StagedAs(fs, t, o, moded, loaded, name, f)
    requires Process(fs, t, o) == SyncStaged(fs, loaded.(stageFile := Some(name)), name, f, o)
    requires t.noop || !ReferenceVerdict(fs[name := f], name, t.dest).changed
    ensures Process(fs, t, o).fs == fs && Process(fs, t, o).ran == []
  {
    RemoveFresh(fs, name, f);
  }

  /** A pass that committed by rename leaves the staged file in the destination's place. */
  lemma RenamePassCommits(fs: Fs, t: TemplateResource, o: Oracles, moded: TemplateResource,
                          loaded: TemplateResource, name: string, f: FileInfo)
    requires forall f, a, b :: o.isChanged(f, a, b) == ReferenceVerdict(f, a, b)
    requires o.rename.Renamed? && !t.keepStageFile && !t.noop
    requires StagedAs(fs, t, o, moded, loaded, name, f)
    requires Process(fs, t, o) == SyncStaged(fs, loaded.(stageFile := Some(name)), name, f, o)
    requires Process(fs, t, o).err.None? && ReferenceVerdict(fs[name := f], name, t.dest).changed
    ensures Process(fs, t, o).fs == fs[t.dest := f]
  {
    var stagedFs := fs[name := f];
    var s := Sync(stagedFs, loaded.(stageFile := Some(name)), o.isChanged(stagedFs, name, t.dest),
                  o.run, o.rename, o.write);
    assert Process(fs, t, o).fs == s.fs;
    assert name !in s.fs && t.dest in s.fs && s.fs[t.dest] == f;
    CommittedShape(fs, s.fs, name, t.dest, f);
  }

  /** Once a pass has committed by rename, an identical pass finds the destination in sync:
      it runs no command and leaves the filesystem exactly as the first pass left it. The
      comparison is the reference one, the staged file is not kept, and the template is not
      its own destination. */
  lemma SecondPassIsQuiet(fs: Fs, t: TemplateResource, o: Oracles)
    requires forall f, a, b :: o.isChanged(f, a, b) == ReferenceVerdict(f, a, b)
    requires o.rename.Renamed? && t.src != t.dest && !t.keepStageFile
    requires Process(fs, t, o).err.None?
    ensures var first := Process(fs, t, o);
            var second := Process(first.fs, t, o);
            second.fs == first.fs && second.err.None? && second.ran == []
  {
    var moded, loaded, name, f := StagedOnSuccess(fs, t, o);
    if t.noop || !ReferenceVerdict(fs[name := f], name, t.dest).changed {
      InSyncPassIsQuiet(fs, t, o, moded, loaded, name, f);
    } else {
      RenamePassCommits(fs, t, o, moded, loaded, name, f);
      SecondPassOnCommitted(fs, t, o, moded, loaded, name, f);
    }
  }

  /** The second pass of `SecondPassIsQuiet` when the first one replaced the destination by
      the staged file `f`. */
  lemma SecondPassOnCommitted(fs: Fs, t: TemplateResource, o: Oracles, moded: TemplateResource,
                              loaded: TemplateResource, name: string, f: FileInfo)
    requires forall f, a, b :: o.isChanged(f, a, b) == ReferenceVerdict(f, a, b)
    requires t.src != t.dest && !t.keepStageFile && !t.noop
    requires StagedAs(fs, t, o, moded, loaded, name, f)
    ensures var second := Process(fs[t.dest := f], t, o);
            second.fs == fs[t.dest := f] && second.err.None? && second.ran == []
  {
    var next := fs[t.dest := f];
    assert SetFileMode(next, t) == Ok(moded);
    assert CreateStageFile(next, loaded, o.render, o.temp).fs == next[name := f];
    assert ReferenceVerdict(next[name := f], name, t.dest).changed == false;
    RemoveFresh(next, name, f);
  }
}

=== FILE: resource.dfy ===
/** A template resource: one managed (template, destination) pair and its sync policy, and
    how it is built from a decoded descriptor (`NewTemplateResource`). */
module Resource {
  import opened Outcomes
  import opened Numbers
  import opened Paths

  /** The processing configuration shared by all resources. The backend client itself is an
      oracle of the pipeline; here only whether one was supplied matters. */
  datatype Config = Config(
    hasStoreClient: bool,
    keepStageFile: bool,
    noop: bool,
    prefix: string,
    syncOnly: bool,
    templateDir: string)

  /** The `[template]` table of a descriptor as the TOML decoder fills it in. Fields the
      descriptor leaves out are empty, except `uid` and `gid`, which keep the `Unset`
      sentinel they are initialised with before decoding. */
  datatype Descriptor = Descriptor(
    checkCmd: string,
    dest: string,
    gid: int,
    group: string,
    keys: seq<string>,
    mode: string,
    owner: string,
    prefix: string,
    reloadCmd: string,
    src: string,
    uid: int)

  /** What the TOML decoder made of the descriptor file: the descriptor, or the decoder's
      error message. */
  datatype Decoded = Decoded(descriptor: Descriptor) | DecodeFailed(detail: string)

  /** The id meaning "not given in the descriptor". */
  const Unset: int := -1

  /** A built resource. `fileMode`, `stageFile` and `store` are the fields the pipeline fills
      in while processing; the rest is fixed at construction. */
  datatype TemplateResource = TemplateResource(
    checkCmd: string,
    dest: string,
    fileMode: nat,
    gid: int,
    group: string,
    keys: seq<string>,
    mode: string,
    owner: string,
    prefix: string,
    reloadCmd: string,
    src: string,
    stageFile: Option<string>,
    uid: int,
    store: map<string, string>,
    keepStageFile: bool,
    noop: bool,
    syncOnly: bool)

  /** The key prefix of a resource: the configuration's prefix when it has one, otherwise the
      descriptor's, forced to start with '/'. */
  function ResourcePrefix(configPrefix: string, descriptorPrefix: string): (p: string)
    ensures IsRooted(p)
    ensures var chosen := if configPrefix != "" then configPrefix else descriptorPrefix;
            && (IsRooted(chosen) ==> p == chosen)
            && (!IsRooted(chosen) ==> p == "/" + chosen)
  {
    var chosen := if configPrefix != "" then configPrefix else descriptorPrefix;
    if HasPrefix(chosen, "/") then chosen else "/" + chosen
  }

  /** A prefix that already starts with '/' is kept as it is, from either slot, so
      normalising is idempotent: a normalised prefix, given again as the configuration's or
      as the descriptor's, comes back unchanged. */
  lemma ResourcePrefixIdempotent(configPrefix: string, descriptorPrefix: string, other: string)
    ensures IsRooted(descriptorPrefix) ==> ResourcePrefix("", descriptorPrefix) == descriptorPrefix
    ensures var p := ResourcePrefix(configPrefix, descriptorPrefix);
            ResourcePrefix(p, other) == p && ResourcePrefix("", p) == p
  {
  }

  /** The numeric owner or group of a resource. An id given in the descriptor is kept; an
      unset one comes from the identity directory when a name is given (failing when the
      name is unknown or its id is not a decimal integer), otherwise from the process's
      effective id. */
  function ResolveId(id: int, name: string, lookup: string -> Option<string>, effective: int,
                     unknown: Error): (r: Result<int>)
    ensures id != Unset ==> r == Ok(id)
    ensures id == Unset && name == "" ==> r == Ok(effective)
    ensures id == Unset && name != "" && lookup(name).None? ==> r == Err(unknown)
    ensures id == Unset && name != "" && lookup(name).Some? ==>
              r == Atoi(lookup(name).value)
  {
    if id != Unset then Ok(id)
    else if name == "" then Ok(effective)
    else match lookup(name)
      case None => Err(unknown)
      case Some(text) => Atoi(text)
  }

  /** `NewTemplateResource`. `decoded` is what the TOML decoder made of the descriptor file,
      `lookupUser`/`lookupGroup` give the decimal id the identity directory holds for a name,
      and `euid`/`egid` are the process's effective ids. */
  function NewTemplateResource(config: Config, decoded: Decoded,
                               lookupUser: string -> Option<string>,
                               lookupGroup: string -> Option<string>,
                               euid: int, egid: int): (r: Result<TemplateResource>)
    ensures !config.hasStoreClient ==> r == Err(NoStoreClient)
    ensures config.hasStoreClient && decoded.DecodeFailed? ==> r == Err(DescriptorError(decoded.detail))
    ensures config.hasStoreClient && decoded.Decoded? && decoded.descriptor.src == "" ==> r == Err(EmptySrc)
    ensures config.hasStoreClient && decoded.Decoded? && decoded.descriptor.src != "" ==>
      var d := decoded.descriptor;
      var uid := ResolveId(d.uid, d.owner, lookupUser, euid, OwnerLookupFailed(d.owner));
      var gid := ResolveId(d.gid, d.group, lookupGroup, egid, GroupLookupFailed(d.group));
      && (uid.Err? ==> r == Err(uid.error))
      && (uid.Ok? && gid.Err? ==> r == Err(gid.error))
    ensures r.Ok? <==>
      && config.hasStoreClient && decoded.Decoded? && decoded.descriptor.src != ""
      && ResolveId(decoded.descriptor.uid, decoded.descriptor.owner, lookupUser, euid,
                   OwnerLookupFailed(decoded.descriptor.owner)).Ok?
      && ResolveId(decoded.descriptor.gid, decoded.descriptor.group, lookupGroup, egid,
                   GroupLookupFailed(decoded.descriptor.group)).Ok?
    ensures r.Ok? ==>
      var d, t := decoded.descriptor, r.value;
      && t.prefix == ResourcePrefix(config.prefix, d.prefix)
      && (d.uid != Unset ==> t.uid == d.uid)
      && (d.uid == Unset && d.owner == "" ==> t.uid == euid)
      && (d.uid == Unset && d.owner != "" ==> Atoi(lookupUser(d.owner).value) == Ok(t.uid))
      && (d.gid != Unset ==> t.gid == d.gid)
      && (d.gid == Unset && d.group == "" ==> t.gid == egid)
      && (d.gid == Unset && d.group != "" ==> Atoi(lookupGroup(d.group).value) == Ok(t.gid))
      && t.src == Join(config.templateDir, d.src)
      && t.dest == d.dest && t.keys == d.keys && t.mode == d.mode
      && t.checkCmd == d.checkCmd && t.reloadCmd == d.reloadCmd
      && t.keepStageFile == config.keepStageFile && t.noop == config.noop
      && t.syncOnly == config.syncOnly
      && t.store == map[] && t.stageFile == None
  {
    if !config.hasStoreClient then Err(NoStoreClient)
    else
      match decoded
      case DecodeFailed(detail) => Err(DescriptorError(detail))
      case Decoded(d) =>
        var prefix := ResourcePrefix(config.prefix, d.prefix);
        if d.src == "" then Err(EmptySrc)
        else
          var uid :- ResolveId(d.uid, d.owner, lookupUser, euid, OwnerLookupFailed(d.owner));
          var gid :- ResolveId(d.gid, d.group, lookupGroup, egid, GroupLookupFailed(d.group));
          Ok(TemplateResource(
            checkCmd := d.checkCmd,
            dest := d.dest,
            fileMode := 0,
            gid := gid,
            group := d.group,
            keys := d.keys,
            mode := d.mode,
            owner := d.owner,
            prefix := prefix,
            reloadCmd := d.reloadCmd,
            src := Join(config.templateDir, d.src),
            stageFile := None,
            uid := uid,
            store := map[],
            keepStageFile := config.keepStageFile,
            noop := config.noop,
            syncOnly := config.syncOnly))
  }

  /** An owner name whose directory entry holds a decimal id resolves to exactly that id. */
  lemma OwnerIdRoundTrip(name: string, lookup: string -> Option<string>, effective: int, uid: int)
    requires name != "" && MinInt64 <= uid <= MaxInt64 && lookup(name) == Some(Itoa(uid))
    ensures ResolveId(Unset, name, lookup, effective, OwnerLookupFailed(name)) == Ok(uid)
  {
    AtoiRoundTrip(uid);
  }
}

=== FILE: scenario.dfy ===
/** The end-to-end case of the resource tests: a template `foo = {{getv "/foo"}}`, a backend
    holding FOO=bar exposed as "/foo", and a destination created empty beforehand. */
module Scenario {
  import opened Outcomes
  import opened Paths
  import opened FileSystem
  import opened Resource
  import opened Store
  import opened Stage
  import opened Syncing
  import opened Pipeline

  const TemplateText: string := "foo = {{getv \"/foo\"}}"
  const Src: string := "foo.tmpl"

  /** The template engine on this one template: `getv "/foo"` reads the store. */
  function GetvFoo(text: string, store: map<string, string>): Rendering {
    if text != TemplateText then ParseFailed(text)
    else if "/foo" !in store then ExecFailed("key does not exist: /foo")
    else Rendered("foo = " + store["/foo"])
  }

  function NoDirectory(name: string): Option<string> {
    None
  }

  function AlwaysSucceeds(command: string): CommandOutcome {
    Succeeded
  }

  /** The descriptor of the test: only `src`, `dest` and `keys` are given. */
  function TestDescriptor(dest: string): Descriptor {
    Descriptor(checkCmd := "", dest := dest, gid := Unset, group := "", keys := ["foo"],
               mode := "", owner := "", prefix := "", reloadCmd := "", src := Src, uid := Unset)
  }

  function TestConfig(templateDir: string): Config {
    Config(hasStoreClient := true, keepStageFile := false, noop := false, prefix := "",
           syncOnly := false, templateDir := templateDir)
  }

  /** The staged file is neither the template nor the destination when the template's
      base name does not start with '.', as the staged file's does. */
  lemma StagedNameFresh(src: string, dest: string, suffix: RandomSuffix)
    requires Base(dest) != "/" && Base(src) != "" && Base(src)[0] != '.'
    ensures TempName(dest, suffix) != src && TempName(dest, suffix) != dest
  {
    StagedIsNotDest(dest, suffix);
    StageFileIsSibling(dest, suffix);
    assert Base(TempName(dest, suffix))[0] == '.';
  }

  /** The store the test's backend yields: FOO=bar is the key "/foo", under prefix "/". */
  lemma FooStore()
    ensures Load([("/foo", "bar")], "/") == map["/foo" := "bar"]
  {
    StoreKeyStripsPrefix("/", ["foo"]);
    assert "/" + Joined(["foo"]) == "/foo";
    assert [("/foo", "bar")][..0] == [];
  }

  /** The shape of the resource the test descriptor builds. */
  predicate Built(t: TemplateResource, src: string, dest: string, uid: int, gid: int) {
    && t.src == src && t.dest == dest && t.prefix == "/" && t.mode == ""
    && t.uid == uid && t.gid == gid && t.checkCmd == "" && t.reloadCmd == ""
    && !t.noop && !t.keepStageFile && !t.syncOnly
  }

  /** The resource the test descriptor builds, before processing. */
  lemma TestResource(templateDir: string, dest: string, uid: int, gid: int)
    returns (t: TemplateResource)
    requires templateDir != ""
    ensures NewTemplateResource(TestConfig(templateDir), Decoded(TestDescriptor(dest)),
                                NoDirectory, NoDirectory, uid, gid) == Ok(t)
    ensures Built(t, Join(templateDir, Src), dest, uid, gid)
  {
    t := NewTemplateResource(TestConfig(templateDir), Decoded(TestDescriptor(dest)),
                             NoDirectory, NoDirectory, uid, gid).value;
  }

  /** Staging the test template with the store {"/foo": "bar"} adds the hidden file holding
      "foo = bar" with the destination's mode. */
  lemma TestStaging(fs: Fs, t: TemplateResource, suffix: RandomSuffix, uid: int, gid: int)
    requires t.src in fs && fs[t.src].content == TemplateText
    requires t.store == map["/foo" := "bar"] && t.fileMode == 384 && t.uid == uid && t.gid == gid
    requires TempName(t.dest, suffix) !in fs
    ensures var name := TempName(t.dest, suffix);
            CreateStageFile(fs, t, GetvFoo, TempCreated(suffix))
              == Staging(fs[name := FileInfo("foo = bar", 384, uid, gid)], t.(stageFile := Some(name)), None)
  {
    assert GetvFoo(TemplateText, map["/foo" := "bar"]) == Rendered("foo = bar");
  }

  /** The filesystem of the test: the template file and an empty destination, created with
      mode 0600 as `afero.TempFile` creates files. */
  function TestFs(src: string, dest: string, uid: int, gid: int): (fs: Fs)
    requires src != dest
    ensures fs.Keys == {src, dest}
    ensures fs[src] == FileInfo(TemplateText, 420, uid, gid) && fs[dest] == FileInfo("", 384, uid, gid)
  {
    map[src := FileInfo(TemplateText, 420, uid, gid), dest := FileInfo("", 384, uid, gid)]
  }

  /** The test's backend answer, as an oracle bundle with the reference
      comparison, a shell that always succeeds and a rename the filesystem accepts. */
  function TestOracles(suffix: RandomSuffix): Oracles {
    Oracles(Fetched([("/foo", "bar")]), GetvFoo, TempCreated(suffix), ReferenceVerdict,
            AlwaysSucceeds, Renamed, Written)
  }

  /** Staging and syncing the loaded test resource: the hidden file replaces the
      destination by rename. */
  lemma TestStageAndSync(fs: Fs, loaded: TemplateResource, suffix: RandomSuffix, uid: int, gid: int)
    requires loaded.src in fs && fs[loaded.src].content == TemplateText
    requires loaded.dest in fs && fs[loaded.dest].content == ""
    requires loaded.store == map["/foo" := "bar"] && loaded.fileMode == 384
    requires loaded.uid == uid && loaded.gid == gid
    requires loaded.checkCmd == "" && loaded.reloadCmd == ""
    requires !loaded.noop && !loaded.keepStageFile
    requires TempName(loaded.dest, suffix) !in fs && TempName(loaded.dest, suffix) != loaded.dest
    ensures var r := StageAndSync(fs, loaded, TestOracles(suffix));
            r.err.None? && r.ran == [] && r.fs == fs[loaded.dest := FileInfo("foo = bar", 384, uid, gid)]
  {
    var name := TempName(loaded.dest, suffix);
    var staged := FileInfo("foo = bar", 384, uid, gid);
    TestStaging(fs, loaded, suffix, uid, gid);
    assert fs[name := staged][name] != fs[name := staged][loaded.dest];
    RenameCommit(fs, loaded.(stageFile := Some(name)), name, staged, TestOracles(suffix));
  }

  /** With no mode given, the test resource takes the destination's 0600, and its store
      becomes {"/foo": "bar"}; the pass then goes on to staging. */
  lemma TestLoad(fs: Fs, t: TemplateResource, suffix: RandomSuffix) returns (loaded: TemplateResource)
    requires t.mode == "" && t.prefix == "/" && t.dest in fs && fs[t.dest].mode == 384
    ensures loaded == t.(fileMode := 384, store := map["/foo" := "bar"])
    ensures Process(fs, t, TestOracles(suffix)) == StageAndSync(fs, loaded, TestOracles(suffix))
  {
    FooStore();
    var moded := t.(fileMode := 384);
    assert SetFileMode(fs, t) == Ok(moded);
    loaded := moded.(store := map["/foo" := "bar"]);
    assert SetVars(moded, Fetched([("/foo", "bar")])) == Ok(loaded);
  }

  /** Processing the built test resource over the test filesystem. */
  lemma TestPass(src: string, dest: string, t: TemplateResource, suffix: RandomSuffix, uid: int, gid: int)
    requires Built(t, src, dest, uid, gid) && src != dest
    requires TempName(dest, suffix) != src && TempName(dest, suffix) != dest
    ensures var fs := TestFs(src, dest, uid, gid);
            var r := Process(fs, t, TestOracles(suffix));
            r.err.None? && r.ran == [] && r.fs == fs[dest := FileInfo("foo = bar", 384, uid, gid)]
  {
    var fs := TestFs(src, dest, uid, gid);
    var loaded := TestLoad(fs, t, suffix);
    TestStageAndSync(fs, loaded, suffix, uid, gid);
  }

  /** Building the resource from the test descriptor and processing it writes "foo = bar"
      into the destination, which keeps its mode (0600, as `afero.TempFile` created it), and
      leaves no other file behind. */
  lemma ProcessTemplateResources(templateDir: string, dest: string, suffix: RandomSuffix,
                                 uid: int, gid: int)
    requires templateDir != "" && Base(dest) != "/" && Join(templateDir, Src) != dest
    ensures
      var src := Join(templateDir, Src);
      var fs := TestFs(src, dest, uid, gid);
      var built := NewTemplateResource(TestConfig(templateDir), Decoded(TestDescriptor(dest)),
                                       NoDirectory, NoDirectory, uid, gid);
      && built.Ok?
      && var r := Process(fs, built.value, TestOracles(suffix));
         && r.err.None? && r.ran == []
         && r.fs == fs[dest := FileInfo("foo = bar", 384, uid, gid)]
  {
    var src := Join(templateDir, Src);
    var t := TestResource(templateDir, dest, uid, gid);
    CleanEndsWithName(templateDir, Src);
    StagedNameFresh(src, dest, suffix);
    TestPass(src, dest, t, suffix, uid, gid);
  }
}

=== FILE: stage.dfy ===
/** The two steps that prepare a candidate file: resolving the permission bits
    (`setFileMode`) and rendering the template into a staged file (`CreateStageFile`). */
module Stage {
  import opened Outcomes
  import opened Numbers
  import opened Paths
  import opened FileSystem
  import opened Resource

  /** Permission bits 0644, for a destination that does not exist yet. */
  const DefaultMode: nat := 420

  /** Permission bits 0600 that a freshly created temporary file starts with. */
  const TempFileMode: nat := 384

  /** `setFileMode`: an explicit mode string is parsed like `strconv.ParseUint(mode, 0, 32)`;
      without one the destination's current mode is inherited, or 0644 when there is no
      destination yet. Only `fileMode` changes, and only on success. */
  function SetFileMode(fs: Fs, t: TemplateResource): (r: Result<TemplateResource>)
    ensures r.Ok? ==> r.value == t.(fileMode := r.value.fileMode)
    ensures t.mode == "" && t.dest !in fs ==> r.Ok? && r.value.fileMode == DefaultMode
    ensures t.mode == "" && t.dest in fs ==> r.Ok? && r.value.fileMode == fs[t.dest].mode
    ensures t.mode != "" ==> (r.Ok? <==> ParseMode(t.mode).Ok?)
    ensures t.mode != "" && r.Ok? ==> r.value.fileMode == ParseMode(t.mode).value
    ensures r.Err? ==> r.error == InvalidMode(t.mode)
  {
    if t.mode == "" then
      if t.dest !in fs then Ok(t.(fileMode := DefaultMode))
      else Ok(t.(fileMode := fs[t.dest].mode))
    else
      var mode :- ParseMode(t.mode);
      Ok(t.(fileMode := mode))
  }

  /** A mode written as "0" and octal digits resolves to exactly that number, whatever the
      destination's current mode. */
  lemma ExplicitOctalMode(fs: Fs, t: TemplateResource, n: nat)
    requires n <= MaxUint32 && t.mode == "0" + Digits.Format(n, 8)
    ensures SetFileMode(fs, t) == Ok(t.(fileMode := n))
  {
    OctalModeRoundTrip(n);
  }

  /** What the template engine made of the source template: compilation failed, execution
      failed, or the rendered text. The engine is an oracle of the model. */
  datatype Rendering = ParseFailed(detail: string) | ExecFailed(detail: string) | Rendered(text: string)

  predicate IsDecimal(s: string) {
    |s| > 0 && forall i :: 0 <= i < |s| ==> '0' <= s[i] <= '9'
  }

  /** The random part afero puts in a temporary file's name: a run of decimal digits. */
  type RandomSuffix = s: string | IsDecimal(s) witness "0"

  /** What `afero.TempFile` reported: the random suffix of the name it chose, or an error. */
  datatype TempOutcome = TempCreated(suffix: RandomSuffix) | TempFailed(detail: string)

  /** The name of the staged file: a hidden sibling of the destination, "." followed by the
      destination's base name and the random suffix, in the destination's directory. */
  function TempName(dest: string, suffix: string): (r: string)
    ensures r != "" && Clean(r) == r
    ensures IsRooted(r) <==> IsRooted(dest)
  {
    var name := "." + Base(dest) + suffix;
    CleanIdempotent(Dir(dest) + "/" + name);
    Join(Dir(dest), name)
  }

  /** The filesystem and resource after `CreateStageFile`, and its error if it failed. */
  datatype Staging = Staging(fs: Fs, res: TemplateResource, err: Option<Error>)

  /** True when `CreateStageFile` gets through every step. */
  predicate StagingSucceeds(fs: Fs, t: TemplateResource,
                            render: (string, map<string, string>) -> Rendering, temp: TempOutcome) {
    && t.src in fs
    && render(fs[t.src].content, t.store).Rendered?
    && temp.TempCreated?
    && TempName(t.dest, temp.suffix) !in fs
  }

  /** `CreateStageFile`. The template must exist; it is compiled, a temporary file is created
      next to the destination, the template is executed into it, and the file gets the
      resolved mode and owner. `render` stands for compiling and executing the template
      text against the store. The temporary file is opened exclusively, so a name that is
      already taken is an error. A failed execution removes the temporary file. */
  function CreateStageFile(fs: Fs, t: TemplateResource,
                           render: (string, map<string, string>) -> Rendering,
                           temp: TempOutcome): (r: Staging)
    ensures r.err.None? <==> StagingSucceeds(fs, t, render, temp)
    ensures r.err.Some? ==> r.fs == fs && r.res == t
    ensures t.src !in fs ==> r.err == Some(MissingTemplate(t.src))
    ensures t.src in fs && render(fs[t.src].content, t.store).ParseFailed? ==>
              r.err == Some(TemplateSyntaxError(render(fs[t.src].content, t.store).detail))
    ensures t.src in fs && !render(fs[t.src].content, t.store).ParseFailed? && temp.TempFailed? ==>
              r.err == Some(TempFileFailed(temp.detail))
    ensures t.src in fs && !render(fs[t.src].content, t.store).ParseFailed? && temp.TempCreated?
            && TempName(t.dest, temp.suffix) in fs ==>
              r.err == Some(TempFileFailed(TempName(t.dest, temp.suffix)))
    ensures t.src in fs && render(fs[t.src].content, t.store).ExecFailed? && temp.TempCreated?
            && TempName(t.dest, temp.suffix) !in fs ==>
              r.err == Some(TemplateRenderError(render(fs[t.src].content, t.store).detail))
    ensures r.err.None? ==>
      var name := TempName(t.dest, temp.suffix);
      && name !in fs
      && r.res == t.(stageFile := Some(name))
      && r.fs == fs[name := FileInfo(render(fs[t.src].content, t.store).text, t.fileMode, t.uid, t.gid)]
  {
    if t.src !in fs then Staging(fs, t, Some(MissingTemplate(t.src)))
    else
      var rendering := render(fs[t.src].content, t.store);
      if rendering.ParseFailed? then Staging(fs, t, Some(TemplateSyntaxError(rendering.detail)))
      else match temp
        case TempFailed(detail) => Staging(fs, t, Some(TempFileFailed(detail)))
        case TempCreated(suffix) =>
          var name := TempName(t.dest, suffix);
          if name in fs then Staging(fs, t, Some(TempFileFailed(name)))
          else if rendering.ExecFailed? then
            Staging(Discarded(fs, name, t.uid, t.gid), t, Some(TemplateRenderError(rendering.detail)))
          else
            Staging(Staged(fs, name, rendering.text, t.fileMode, t.uid, t.gid),
                    t.(stageFile := Some(name)), None)
  }

  /** A temporary file created and then removed after a failed execution leaves the
      filesystem as it was, because the file was created fresh. The creating process's ids
      are not tracked; `uid`/`gid` stand in for them. */
  function Discarded(fs: Fs, name: string, uid: int, gid: int): (r: Fs)
    requires name !in fs
    ensures r == fs
  {
    var created := fs[name := FileInfo("", TempFileMode, uid, gid)];
    Remove(created, name)
  }

  /** A temporary file created, filled with the rendered text, then given the resource's mode
      and owner: exactly one new file with those attributes. */
  function Staged(fs: Fs, name: string, text: string, mode: nat, uid: int, gid: int): (r: Fs)
    requires name !in fs
    ensures r == fs[name := FileInfo(text, mode, uid, gid)]
  {
    var created := fs[name := FileInfo("", TempFileMode, uid, gid)];
    var written := created[name := created[name].(content := text)];
    Chown(Chmod(written, name, mode), name, uid, gid)
  }

  lemma BaseHasNoSlash(p: string)
    requires Base(p) != "/"
    ensures '/' !in Base(p) && Base(p) != ""
  {
  }

  /** The staged file is a hidden sibling of the destination: it lies in the same directory
      (hence on the same filesystem, so the commit can be a rename), its base name is the
      destination's behind a "." with the suffix appended, and so it is never the
      destination itself. This holds when the destination is not the root. */
  lemma StageFileIsSibling(dest: string, suffix: RandomSuffix)
    requires Base(dest) != "/"
    ensures Dir(TempName(dest, suffix)) == Dir(dest)
    ensures Base(TempName(dest, suffix)) == "." + Base(dest) + suffix
    ensures TempName(dest, suffix) != dest
  {
    var n := "." + Base(dest) + suffix;
    BaseHasNoSlash(dest);
    assert |n| >= 3;
    assert '/' !in n by {
      forall i | 0 <= i < |n| ensures n[i] != '/' {
        if 1 <= i < 1 + |Base(dest)| {
          assert n[i] == Base(dest)[i - 1];
        } else if i >= 1 + |Base(dest)| {
          assert n[i] == suffix[i - 1 - |Base(dest)|];
        }
      }
    }
    DirOfJoin(dest, n);
    BaseOfJoin(dest, n);
  }

  lemma SuffixOrdinary(suffix: RandomSuffix)
    ensures Ordinary(suffix) && suffix[|suffix| - 1] != '/'
  {
    assert suffix[0] != '.';
    assert '/' !in suffix by {
      forall i | 0 <= i < |suffix| ensures suffix[i] != '/' {
        assert '0' <= suffix[i] <= '9';
      }
    }
  }

  /** A destination made of slashes only ends in '/', while its staged name ends in the
      random digits. */
  lemma RootDestStaged(dest: string, suffix: RandomSuffix)
    requires Base(dest) == "/"
    ensures TempName(dest, suffix) != dest
  {
    var d := Dir(dest);
    SuffixOrdinary(suffix);
    assert "." + Base(dest) + suffix == "./" + suffix;
    assert d + "/" + ("./" + suffix) == (d + "/" + ".") + "/" + suffix;
    CleanEndsWithName(d + "/" + ".", suffix);
    var name := TempName(dest, suffix);
    assert name[|name| - 1] == suffix[|suffix| - 1];
    assert dest != "" && TrimTrailingSlashes(dest) == "";
    assert dest[|dest| - 1] == '/';
  }

  /** The staged file is never the destination, whatever the destination's name: its name
      ends in the random digits, while a destination whose base name is not an ordinary name
      consists of slashes only. */
  lemma StagedIsNotDest(dest: string, suffix: RandomSuffix)
    ensures TempName(dest, suffix) != dest
  {
    if Base(dest) != "/" {
      StageFileIsSibling(dest, suffix);
    } else {
      RootDestStaged(dest, suffix);
    }
  }
}

=== FILE: store.dfy ===
/** The staging store of a resource and `setVars`, which rebuilds it from one backend fetch. */
module Store {
  import opened Outcomes
  import opened Paths
  import opened Resource

  /** What the backend client answered: the key/value map in the order Go's `range` happened
      to visit it (that order is randomised at run time, so it is an oracle here), or an error. */
  datatype Fetch = Fetched(pairs: seq<(string, string)>) | FetchFailed(detail: string)

  /** The store key of a backend key: the resource prefix stripped, then rooted and cleaned
      by `path.Join("/", ...)`. */
  function StoreKey(key: string, prefix: string): (k: string)
    ensures IsRooted(k)
  {
    Join("/", TrimPrefix(key, prefix))
  }

  /** `Purge` followed by one `Set` per fetched pair, in iteration order. Every fetched key
      lands under its store key, nothing else is present, and when two backend keys share a
      store key the pair visited last wins. */
  function Load(pairs: seq<(string, string)>, prefix: string): (s: map<string, string>)
    ensures forall k :: k in s <==> exists i :: 0 <= i < |pairs| && StoreKey(pairs[i].0, prefix) == k
    ensures forall k :: k in s ==> IsRooted(k)
  {
    if |pairs| == 0 then map[]
    else
      var last := pairs[|pairs| - 1];
      var rest := Load(pairs[..|pairs| - 1], prefix);
      rest[StoreKey(last.0, prefix) := last.1]
  }

  /** `setVars`. On a backend error the resource is left exactly as it was and the error is
      returned; otherwise the store is replaced by the fetched pairs under their store keys,
      whatever it held before. */
  function SetVars(t: TemplateResource, fetch: Fetch): (r: Result<TemplateResource>)
    ensures fetch.FetchFailed? ==> r == Err(BackendError(fetch.detail))
    ensures fetch.Fetched? ==> r.Ok? && r.value == t.(store := r.value.store)
    ensures fetch.Fetched? ==> forall k :: k in r.value.store <==>
              exists i :: 0 <= i < |fetch.pairs| && StoreKey(fetch.pairs[i].0, t.prefix) == k
    ensures fetch.Fetched? ==> forall k :: k in r.value.store ==> IsRooted(k)
  {
    match fetch
    case FetchFailed(detail) => Err(BackendError(detail))
    case Fetched(pairs) => Ok(t.(store := Load(pairs, t.prefix)))
  }

  /** No key from an earlier cycle survives a successful fetch: the new store depends only on
      the fetched pairs and the prefix. */
  lemma NoStaleKeys(t: TemplateResource, previous: map<string, string>, pairs: seq<(string, string)>)
    ensures SetVars(t.(store := previous), Fetched(pairs)) == SetVars(t, Fetched(pairs))
  {
  }

  /** The value under a store key is the one of the last fetched pair with that store key. */
  lemma {:induction false} LoadLastWins(pairs: seq<(string, string)>, prefix: string, i: nat)
    requires i < |pairs|
    requires forall j :: i < j < |pairs| ==> StoreKey(pairs[j].0, prefix) != StoreKey(pairs[i].0, prefix)
    ensures Load(pairs, prefix)[StoreKey(pairs[i].0, prefix)] == pairs[i].1
    decreases |pairs|
  {
    if i < |pairs| - 1 {
      var init := pairs[..|pairs| - 1];
      assert init[i] == pairs[i];
      LoadLastWins(init, prefix, i);
    }
  }

  /** When the fetched keys are distinct and no two share a store key (the usual case: each
      key starts with the prefix and has no "." or ".." segments), every pair is visible
      under its store key with its own value. */
  lemma {:induction false} LoadInjective(pairs: seq<(string, string)>, prefix: string)
    requires forall i, j :: 0 <= i < j < |pairs| ==>
               StoreKey(pairs[i].0, prefix) != StoreKey(pairs[j].0, prefix)
    ensures forall i :: 0 <= i < |pairs| ==>
              && StoreKey(pairs[i].0, prefix) in Load(pairs, prefix)
              && Load(pairs, prefix)[StoreKey(pairs[i].0, prefix)] == pairs[i].1
    ensures |Load(pairs, prefix)| == |pairs|
    decreases |pairs|
  {
    forall i | 0 <= i < |pairs|
      ensures Load(pairs, prefix)[StoreKey(pairs[i].0, prefix)] == pairs[i].1
    {
      LoadLastWins(pairs, prefix, i);
    }
    if |pairs| > 0 {
      var init := pairs[..|pairs| - 1];
      LoadInjective(init, prefix);
    }
  }

  /** A backend key under the prefix whose remainder is a plain relative name is exposed as
      that name rooted at '/', and not under its backend name: with prefix "/app/", the
      backend key "/app/db/host" is exposed as "/db/host". */
  lemma StoreKeyStripsPrefix(prefix: string, segs: seq<string>)
    requires |segs| >= 1 && forall i :: 0 <= i < |segs| ==> Ordinary(segs[i])
    ensures StoreKey(prefix + Joined(segs), prefix) == "/" + Joined(segs)
  {
    var key := prefix + Joined(segs);
    assert key[..|prefix|] == prefix;
    assert TrimPrefix(key, prefix) == Joined(segs);
    JoinRootOrdinary(segs);
  }

  /** With prefix "/app/", the single backend pair "/app/db/host" = "x" gives a store
      holding exactly "/db/host" = "x". */
  lemma PrefixScenario()
    ensures var s := Load([("/app/db/host", "x")], "/app/");
            s == map["/db/host" := "x"] && "/app/db/host" !in s
  {
    assert Joined(["db", "host"]) == "db/host";
    StoreKeyStripsPrefix("/app/", ["db", "host"]);
    assert "/app/" + "db/host" == "/app/db/host";
    assert StoreKey("/app/db/host", "/app/") == "/db/host";
    var pairs := [("/app/db/host", "x")];
    assert pairs[..0] == [];
    assert Load(pairs, "/app/") == Load([], "/app/")["/db/host" := "x"];
  }
}

=== FILE: sync.dfy ===
/** `sync` and `check`: comparing the staged file with the destination and committing it,
    with the optional check command before and reload command after. */
module Syncing {
  import opened Outcomes
  import opened FileSystem
  import opened Resource

  /** What `util.IsConfigChanged` reported for (staged, destination): whether they differ, and
      an error that `sync` only logs. */
  datatype ChangeVerdict = ChangeVerdict(changed: bool, err: Option<string>)

  /** The exit of a shell command: status 0, or a failure with its message. */
  datatype CommandOutcome = Succeeded | Failed(detail: string)

  /** What `fs.Rename(staged, dest)` reported. `Busy` is an error whose text contains
      "device or resource busy", which happens when the destination is a mount point. */
  datatype RenameOutcome = Renamed | Busy | RenameError(detail: string)

  /** What the busy fallback's I/O reported: `afero.ReadFile` of the staged file failed
      (`ReadError`), or it succeeded and `afero.WriteFile` of the destination succeeded
      (`Written`) or failed (`WriteError`). */
  datatype WriteOutcome = Written | ReadError(detail: string) | WriteError(detail: string)

  /** A shell command `sync` ran, and what it ran it for. */
  datatype Command = CheckRun(line: string) | ReloadRun(line: string)

  /** The filesystem after `sync`, the error it returned if any, and the shell commands it
      ran, in order. */
  datatype Synced = Synced(fs: Fs, err: Option<Error>, ran: seq<Command>)

  /** The filesystem after the commit, and the commit's error if it failed. */
  datatype Committed = Committed(fs: Fs, err: Option<Error>)

  /** The placeholder of the check command that names the file to check. */
  const SrcAction: string := "{{.src}}"

  /** Every occurrence of `pat` in `s`, scanned from the left, replaced by `rep`. */
  function ReplaceAll(s: string, pat: string, rep: string): string
    requires |pat| > 0
    decreases |s|
  {
    if |s| < |pat| then s
    else if s[..|pat|] == pat then rep + ReplaceAll(s[|pat|..], pat, rep)
    else [s[0]] + ReplaceAll(s[1..], pat, rep)
  }

  /** The command `check` runs: the check command with the staged file's path in place of
      every `{{.src}}` action. */
  function CheckCommand(checkCmd: string, staged: string): (r: string)
    ensures '{' !in checkCmd ==> r == checkCmd
  {
    if '{' !in checkCmd then ReplacePlain(checkCmd, staged); ReplaceAll(checkCmd, SrcAction, staged)
    else ReplaceAll(checkCmd, SrcAction, staged)
  }

  /** Text without a '{' holds no template action and is left exactly as it is. */
  lemma {:induction false} ReplacePlain(s: string, rep: string)
    requires '{' !in s
    ensures ReplaceAll(s, SrcAction, rep) == s
    decreases |s|
  {
    if |s| >= |SrcAction| {
      assert s[..|SrcAction|][0] == s[0] != SrcAction[0];
      ReplacePlain(s[1..], rep);
      assert [s[0]] + s[1..] == s;
    }
  }

  /** Text that starts with the pattern has it replaced, and the rest processed in turn. */
  lemma ReplaceAtPattern(pat: string, b: string, rep: string)
    requires |pat| > 0
    ensures ReplaceAll(pat + b, pat, rep) == rep + ReplaceAll(b, pat, rep)
  {
    var s := pat + b;
    assert s[..|pat|] == pat;
    assert s[|pat|..] == b;
  }

  /** Text that starts with a character other than the pattern's first keeps it. */
  lemma ReplaceKeepsHead(pat: string, c: char, rest: string, rep: string)
    requires |pat| > 0 && c != pat[0]
    ensures ReplaceAll([c] + rest, pat, rep) == [c] + ReplaceAll(rest, pat, rep)
  {
    var s := [c] + rest;
    if |s| >= |pat| {
      assert s[..|pat|][0] == c;
      assert s[1..] == rest;
    }
  }

  /** One character of the text before the pattern: it is copied, and the rest spliced. */
  lemma ReplaceSpliceStep(a: string, pat: string, b: string, rep: string)
    requires |a| > 0 && |pat| > 0 && a[0] != pat[0]
    requires ReplaceAll(a[1..] + pat + b, pat, rep) == a[1..] + rep + ReplaceAll(b, pat, rep)
    ensures ReplaceAll(a + pat + b, pat, rep) == a + rep + ReplaceAll(b, pat, rep)
  {
    var tail := a[1..] + pat + b;
    assert a + pat + b == [a[0]] + tail;
    ReplaceKeepsHead(pat, a[0], tail, rep);
    assert [a[0]] + (a[1..] + rep + ReplaceAll(b, pat, rep)) == a + rep + ReplaceAll(b, pat, rep);
  }

  lemma {:induction false} ReplaceSpliceAt(a: string, pat: string, b: string, rep: string)
    requires |pat| > 0 && pat[0] !in a
    ensures ReplaceAll(a + pat + b, pat, rep) == a + rep + ReplaceAll(b, pat, rep)
    decreases |a|
  {
    if |a| == 0 {
      assert a + pat + b == pat + b;
      ReplaceAtPattern(pat, b, rep);
    } else {
      ReplaceSpliceAt(a[1..], pat, b, rep);
      ReplaceSpliceStep(a, pat, b, rep);
    }
  }

  /** The action is replaced where it stands: the text before it (free of '{') is copied, the
      path takes the action's place, and the rest is processed in turn. */
  lemma ReplaceSplice(a: string, b: string, rep: string)
    requires '{' !in a
    ensures ReplaceAll(a + SrcAction + b, SrcAction, rep) == a + rep + ReplaceAll(b, SrcAction, rep)
  {
    assert SrcAction[0] == '{';
    ReplaceSpliceAt(a, SrcAction, b, rep);
  }

  /** A check command "<command> {{.src}}" checks exactly the staged file. */
  lemma CheckStagedFile(command: string, staged: string)
    requires '{' !in command
    ensures CheckCommand(command + SrcAction, staged) == command + staged
  {
    ReplaceSplice(command, "", staged);
    assert command + SrcAction + "" == command + SrcAction;
    assert ReplaceAll("", SrcAction, staged) == "";
  }

  /** The destination after the commit, and the error of the commit if it failed. A file
      the filesystem renamed keeps the staged file's mode and owner. In the busy fallback the
      staged content is written into the destination (an existing destination keeps its
      mode; a new one gets the resource's mode) and the destination is chowned to the
      resource's owner, even when the write failed. */
  function Commit(fs: Fs, t: TemplateResource, staged: string, rename: RenameOutcome,
                  write: WriteOutcome): (r: Committed)
    ensures SameExcept(fs, r.fs, {staged, t.dest})
    ensures r.err.None? <==> staged in fs && (rename.Renamed? || (rename.Busy? && write.Written?))
    ensures r.err.None? ==> t.dest in r.fs && r.fs[t.dest].content == fs[staged].content
    ensures r.err.None? && rename.Renamed? ==> r.fs[t.dest] == fs[staged]
    ensures r.err.None? && rename.Busy? ==>
              && r.fs[t.dest].uid == t.uid && r.fs[t.dest].gid == t.gid
              && r.fs[t.dest].mode == (if t.dest in fs then fs[t.dest].mode else t.fileMode)
              && staged in r.fs
    ensures r.err.Some? && (staged !in fs || !rename.Busy? || write.ReadError?) ==> r.fs == fs
    ensures staged in fs && rename.Busy? && write.ReadError? ==> r.err == Some(ReadFailed(write.detail))
    ensures r.err.Some? ==> r.err.value.RenameFailed? || r.err.value.ReadFailed? || r.err.value.WriteFailed?
  {
    if staged !in fs then Committed(fs, Some(RenameFailed(staged)))
    else match rename
      case Renamed => Committed(Move(fs, staged, t.dest), None)
      case RenameError(detail) => Committed(fs, Some(RenameFailed(detail)))
      case Busy =>
        var content := fs[staged].content;
        match write
        case ReadError(detail) => Committed(fs, Some(ReadFailed(detail)))
        case Written =>
          var written := WriteFile(fs, t.dest, content, t.fileMode, t.uid, t.gid);
          Committed(Chown(written, t.dest, t.uid, t.gid), None)
        case WriteError(detail) =>
          Committed(Chown(fs, t.dest, t.uid, t.gid), Some(WriteFailed(detail)))
  }

  /** The check command is configured and fails on the staged file. */
  predicate CheckFails(t: TemplateResource, staged: string, run: string -> CommandOutcome) {
    !t.syncOnly && t.checkCmd != "" && run(CheckCommand(t.checkCmd, staged)).Failed?
  }

  /** The part of `sync` before the staged file's removal. */
  function Attempt(fs: Fs, t: TemplateResource, staged: string, verdict: ChangeVerdict,
                   run: string -> CommandOutcome, rename: RenameOutcome,
                   write: WriteOutcome): (r: Synced)
    ensures t.noop || !verdict.changed ==> r == Synced(fs, None, [])
    ensures SameExcept(fs, r.fs, {staged, t.dest})
    ensures t.syncOnly ==> r.ran == []
    ensures |r.ran| <= 2 && (|r.ran| == 2 ==> r.ran[0].CheckRun? && r.ran[1].ReloadRun?)
    ensures forall i :: 0 <= i < |r.ran| && r.ran[i].CheckRun? ==>
              !t.syncOnly && t.checkCmd != "" && r.ran[i].line == CheckCommand(t.checkCmd, staged)
    ensures forall i :: 0 <= i < |r.ran| && r.ran[i].ReloadRun? ==>
              && !t.syncOnly && t.reloadCmd != "" && r.ran[i].line == t.reloadCmd
              && staged in fs && t.dest in r.fs && r.fs[t.dest].content == fs[staged].content
    ensures !t.noop && verdict.changed && !t.syncOnly && t.checkCmd != "" ==>
              |r.ran| >= 1 && r.ran[0] == CheckRun(CheckCommand(t.checkCmd, staged))
    ensures r.err.None? && !t.noop && verdict.changed && !t.syncOnly && t.reloadCmd != "" ==>
              |r.ran| >= 1 && r.ran[|r.ran| - 1] == ReloadRun(t.reloadCmd)
    ensures r.err.Some? && r.err.value.CheckFailed? ==> r.fs == fs
    ensures r.err.Some? && !r.err.value.ReloadFailed? ==>
              forall i :: 0 <= i < |r.ran| ==> r.ran[i].CheckRun?
    ensures r.err.Some? ==> r.err.value.CheckFailed? || r.err.value.RenameFailed? || r.err.value.ReadFailed?
                            || r.err.value.WriteFailed? || r.err.value.ReloadFailed?
    ensures r.err.None? && !t.noop && verdict.changed ==>
              staged in fs && t.dest in r.fs && r.fs[t.dest].content == fs[staged].content
    ensures r.err.None? && !t.noop && verdict.changed && rename.Renamed? ==>
              r.fs[t.dest] == fs[staged]
    ensures r.err.None? && !t.noop && verdict.changed && rename.Busy? ==>
              r.fs[t.dest] == FileInfo(fs[staged].content,
                                       if t.dest in fs then fs[t.dest].mode else t.fileMode,
                                       t.uid, t.gid)
    ensures !t.noop && verdict.changed && CheckFails(t, staged, run) ==>
              && r.err == Some(CheckFailed(run(CheckCommand(t.checkCmd, staged)).detail))
              && r.fs == fs && r.ran == [CheckRun(CheckCommand(t.checkCmd, staged))]
    ensures !t.noop && verdict.changed && !CheckFails(t, staged, run) ==>
              var c := Commit(fs, t, staged, rename, write);
              && r.fs == c.fs
              && (c.err.Some? ==> r.err == c.err)
              && (c.err.None? && (t.syncOnly || t.reloadCmd == "") ==> r.err.None?)
              && (c.err.None? && !t.syncOnly && t.reloadCmd != "" ==>
                    && (r.err.Some? <==> run(t.reloadCmd).Failed?)
                    && (r.err.Some? ==> r.err == Some(ReloadFailed(run(t.reloadCmd).detail))))
  {
    if t.noop || !verdict.changed then Synced(fs, None, [])
    else
      var checked := if !t.syncOnly && t.checkCmd != "" then [CheckRun(CheckCommand(t.checkCmd, staged))] else [];
      if checked != [] && run(checked[0].line).Failed? then
        Synced(fs, Some(CheckFailed(run(checked[0].line).detail)), checked)
      else
        var committed := Commit(fs, t, staged, rename, write);
        if committed.err.Some? then Synced(committed.fs, committed.err, checked)
        else if t.syncOnly || t.reloadCmd == "" then Synced(committed.fs, None, checked)
        else
          var ran := checked + [ReloadRun(t.reloadCmd)];
          match run(t.reloadCmd)
          case Succeeded => Synced(committed.fs, None, ran)
          case Failed(detail) => Synced(committed.fs, Some(ReloadFailed(detail)), ran)
  }

  /** `sync`. `verdict` is what `util.IsConfigChanged` reported for the staged file and the
      destination; `run` runs a shell command; `rename` and `write` are what the filesystem
      reported for the commit. Unless the resource keeps its staged file, the staged file is
      removed on every path, including noop and failures. */
  function Sync(fs: Fs, t: TemplateResource, verdict: ChangeVerdict,
                run: string -> CommandOutcome, rename: RenameOutcome,
                write: WriteOutcome): (r: Synced)
    requires t.stageFile.Some?
    ensures var staged := t.stageFile.value;
            var cleaned := if t.keepStageFile then fs else Remove(fs, staged);
            t.noop || !verdict.changed ==> r == Synced(cleaned, None, [])
    ensures !t.keepStageFile ==> t.stageFile.value !in r.fs
    ensures SameExcept(fs, r.fs, {t.stageFile.value, t.dest})
    ensures t.syncOnly ==> r.ran == []
    ensures |r.ran| <= 2 && (|r.ran| == 2 ==> r.ran[0].CheckRun? && r.ran[1].ReloadRun?)
    ensures forall i :: 0 <= i < |r.ran| && r.ran[i].CheckRun? ==>
              && !t.syncOnly && t.checkCmd != ""
              && r.ran[i].line == CheckCommand(t.checkCmd, t.stageFile.value)
    ensures forall i :: 0 <= i < |r.ran| && r.ran[i].ReloadRun? ==>
              && !t.syncOnly && t.reloadCmd != "" && r.ran[i].line == t.reloadCmd
              && (t.stageFile.value != t.dest ==>
                    && t.stageFile.value in fs && t.dest in r.fs
                    && r.fs[t.dest].content == fs[t.stageFile.value].content)
    ensures !t.noop && verdict.changed && !t.syncOnly && t.checkCmd != "" ==>
              |r.ran| >= 1 && r.ran[0] == CheckRun(CheckCommand(t.checkCmd, t.stageFile.value))
    ensures r.err.None? && !t.noop && verdict.changed && !t.syncOnly && t.reloadCmd != "" ==>
              |r.ran| >= 1 && r.ran[|r.ran| - 1] == ReloadRun(t.reloadCmd)
    ensures r.err.Some? && r.err.value.CheckFailed? && t.stageFile.value != t.dest ==>
              (t.dest in r.fs <==> t.dest in fs) && (t.dest in fs ==> r.fs[t.dest] == fs[t.dest])
    ensures r.err.Some? && !r.err.value.ReloadFailed? ==>
              forall i :: 0 <= i < |r.ran| ==> r.ran[i].CheckRun?
    ensures r.err.None? && !t.noop && verdict.changed && t.stageFile.value != t.dest ==>
              && t.stageFile.value in fs
              && t.dest in r.fs && r.fs[t.dest].content == fs[t.stageFile.value].content
              && (rename.Renamed? ==> r.fs[t.dest] == fs[t.stageFile.value])
              && (rename.Busy? ==>
                    r.fs[t.dest] == FileInfo(fs[t.stageFile.value].content,
                                             if t.dest in fs then fs[t.dest].mode else t.fileMode,
                                             t.uid, t.gid))
    ensures r.err.Some? ==> !t.noop && verdict.changed
    ensures r.err.Some? ==> r.err.value.CheckFailed? || r.err.value.RenameFailed? || r.err.value.ReadFailed?
                            || r.err.value.WriteFailed? || r.err.value.ReloadFailed?
  {
    var staged := t.stageFile.value;
    var attempt := Attempt(fs, t, staged, verdict, run, rename, write);
    var cleaned := if t.keepStageFile then attempt.fs else Remove(attempt.fs, staged);
    Synced(cleaned, attempt.err, attempt.ran)
  }

  /** The validation gate of `sync`: a changed staged file whose check command fails is
      reported with the check's message and never reaches the destination; only the check
      runs, and the staged file is removed unless kept. */
  lemma SyncCheckGate(fs: Fs, t: TemplateResource, verdict: ChangeVerdict,
                      run: string -> CommandOutcome, rename: RenameOutcome, write: WriteOutcome)
    requires t.stageFile.Some? && !t.noop && verdict.changed
    requires CheckFails(t, t.stageFile.value, run)
    ensures var r := Sync(fs, t, verdict, run, rename, write);
            var staged := t.stageFile.value;
            && r.err == Some(CheckFailed(run(CheckCommand(t.checkCmd, staged)).detail))
            && r.fs == (if t.keepStageFile then fs else Remove(fs, staged))
            && r.ran == [CheckRun(CheckCommand(t.checkCmd, staged))]
  {
  }

  /** Past a passed (or absent) check, `sync` is the commit followed by the reload: the
      filesystem is the commit's (less the staged file unless kept), a commit error is
      returned as it is, and after a successful commit the pass fails exactly when a
      configured reload command fails. */
  lemma SyncCommitOutcome(fs: Fs, t: TemplateResource, verdict: ChangeVerdict,
                          run: string -> CommandOutcome, rename: RenameOutcome, write: WriteOutcome)
    requires t.stageFile.Some? && !t.noop && verdict.changed
    requires !CheckFails(t, t.stageFile.value, run)
    ensures var r := Sync(fs, t, verdict, run, rename, write);
            var staged := t.stageFile.value;
            var c := Commit(fs, t, staged, rename, write);
            && r.fs == (if t.keepStageFile then c.fs else Remove(c.fs, staged))
            && (c.err.Some? ==> r.err == c.err)
            && (c.err.None? && (t.syncOnly || t.reloadCmd == "") ==> r.err.None?)
            && (c.err.None? && !t.syncOnly && t.reloadCmd != "" ==>
                  && (r.err.Some? <==> run(t.reloadCmd).Failed?)
                  && (r.err.Some? ==> r.err == Some(ReloadFailed(run(t.reloadCmd).detail))))
  {
  }

  /** The comparison's own error is only logged: it does not change what `sync` does. */
  lemma VerdictErrorIgnored(fs: Fs, t: TemplateResource, changed: bool, e1: Option<string>,
                            e2: Option<string>, run: string -> CommandOutcome,
                            rename: RenameOutcome, write: WriteOutcome)
    requires t.stageFile.Some?
    ensures Sync(fs, t, ChangeVerdict(changed, e1), run, rename, write)
         == Sync(fs, t, ChangeVerdict(changed, e2), run, rename, write)
  {
  }

  /** A failing reload does not roll the destination back: after a passed (or absent) check
      and a successful commit, by rename or by the busy fallback, the new content stays in
      place and the reload's failure is reported. */
  lemma ReloadFailureKeepsCommit(fs: Fs, t: TemplateResource, verdict: ChangeVerdict,
                                 run: string -> CommandOutcome, rename: RenameOutcome,
                                 write: WriteOutcome)
    requires t.stageFile.Some? && t.stageFile.value in fs && t.stageFile.value != t.dest
    requires !t.noop && verdict.changed && !t.syncOnly && !CheckFails(t, t.stageFile.value, run)
    requires rename.Renamed? || (rename.Busy? && write.Written?)
    requires t.reloadCmd != "" && run(t.reloadCmd).Failed?
    ensures var r := Sync(fs, t, verdict, run, rename, write);
            && r.err == Some(ReloadFailed(run(t.reloadCmd).detail))
            && |r.ran| >= 1 && r.ran[|r.ran| - 1] == ReloadRun(t.reloadCmd)
            && t.dest in r.fs && r.fs[t.dest].content == fs[t.stageFile.value].content
            && (rename.Renamed? ==> r.fs[t.dest] == fs[t.stageFile.value])
  {
  }

  /** A rename that fails for any reason other than a busy destination is returned as it
      is: the destination is untouched and no reload runs. */
  lemma RenameErrorSkipsReload(fs: Fs, t: TemplateResource, verdict: ChangeVerdict,
                               run: string -> CommandOutcome, detail: string, write: WriteOutcome)
    requires t.stageFile.Some? && t.stageFile.value in fs && t.stageFile.value != t.dest
    requires !t.noop && verdict.changed
    requires t.syncOnly || t.checkCmd == "" || run(CheckCommand(t.checkCmd, t.stageFile.value)).Succeeded?
    ensures var r := Sync(fs, t, verdict, run, RenameError(detail), write);
            && r.err == Some(RenameFailed(detail))
            && (forall i :: 0 <= i < |r.ran| ==> r.ran[i].CheckRun?)
            && (t.dest in r.fs <==> t.dest in fs) && (t.dest in fs ==> r.fs[t.dest] == fs[t.dest])
  {
  }
}
